=== FILE: README.md ===
# Monolayer cell tracking: contact geometry and per-cell records

This project models the spatial-relationship and per-cell record engine of
`monolayer_cell_tracking`. It works on cell outlines that segmentation has
already produced and trajectories that tracking has already linked. It decides:

- which cell outline contains a tracked centroid;
- which cells lie close enough to be candidates, with radius three times the
  square root of the mean cell area at that frame;
- which candidates actually touch, with a 2 px boundary tolerance;
- how many boundary points two touching cells share, with a 1 px tolerance;
- what each line of a cell's record holds in `dump_data`: one row per tracked
  frame, eleven scalar columns, and twelve neighbour slots padded with -1.

It is written in Dafny as pure functions over sequences of integer pixels and
index lists:

- `outcomes.dfy` (module `Outcomes`): the exceptions the code can raise and a
  `Result` that carries them.
- `segmentation.dfy` (module `Segmentation`): the single-frame contour cache,
  the even/odd split of a flattened outline, the first-containing-contour
  lookup, and `shared_edge`.
- `trajectories.dfy` (module `Trajectories`): the per-cell accessors, the cells
  present at a frame, the window filter, the metric pre-filter, the contact
  test and the neighbour list.
- `records.dfy` (module `Records`): the column template, the row assembly, the
  per-cell record and the output directory across runs.

The contact filter and the slot loop of `dump_data` take the contour lookup
as a function from cell index to contour (`CellLookup`). The directory loop
takes each cell's record as a function from cell index to rows
(`CellRecords`). Their properties therefore hold for any lookup and any
record, and the experiment-specific facts are stated once, where the
function is built.

Every distance test is decided exactly on integers:

- `sqrt(d2) <= 1` is `d2 <= 1` (`ContactRadius2`);
- `sqrt(d2) <= 2.0` is `d2 <= 4` (`AdjacencyRadius2`);
- `3 * sqrt(mean) < sqrt(d2)` is `9 * sum < n * d2`.

Python raises exceptions; the model returns `Failure(e)` instead:

- `ValueError` for `list.index` of an absent frame or `int()` of a NaN;
- `IndexError` for a short pixel vector or a cell index past the end;
- `KeyError` for a thirteenth neighbour;
- `FileNotFound` for a frame with no stored segmentation.

Foreign code is taken as a parameter:

- cellpose's `outlines_list` becomes an `OutlineStore`, the flattened
  outlines of each stored frame;
- shapely's `Point.within(Polygon)` becomes the predicate `inside`;
- `cell_avg_pixel_vector` becomes `pixelMeans`, the per-pixel means read
  from the frame image, after the load of the stored segmentation, which
  the model keeps;
- the btrack tracklets become `Track` records. A `Track` holds its time list and,
  in lock step with it, its centroid, area, axis lengths and orientation, each
  a float that may be NaN.

In three places the code does something easy to misread; the model follows the code:

- More than twelve touching neighbours do not get truncated. Writing slot 12
  looks up `neigh_12`, which the template does not have, and the row fails
  with KeyError (`TooManyNeighborsIsKeyError`).
- A frame with no cells does not fail `average_cell_size`. The candidate loop
  then has nothing to iterate, and `neighbor_candidates` returns an empty list.
- The `isnan` filter in `average_cell_size` never removes anything. `A` has
  already turned a NaN area into -1, so the -1 sentinels enter the mean. A
  negative mean has a NaN square root, and `nan < d` is False, so every
  present cell passes the pre-filter (`NaNAreasKeepEveryCell`).

## Model

| member | source | states |
|---|---|---|
| Segmentation.SqDistSymmetric | monolayer_cell_tracking/segmentation.py:76 | The squared distance behind every tolerance test is symmetric. |
| Segmentation.Contour.Points | monolayer_cell_tracking/segmentation.py:68 | `zip(cell['x'], cell['y'])` pairs the k-th x with the k-th y and stops at the shorter array. |
| Segmentation.EveryOtherPicksEvenPositions | monolayer_cell_tracking/segmentation.py:60-61 | `s[::2]` has half the length of `s`, rounded up, and entry k is `s[2k]`. |
| Segmentation.FromOutline | monolayer_cell_tracking/segmentation.py:58-61 | `x` holds the even positions of the flattened outline and `y` the odd ones. The two have equal length exactly when the outline has even length, and the zipped outline has half as many points as the outline has numbers, rounded down. |
| Segmentation.LoadContours | monolayer_cell_tracking/segmentation.py:45-61 | A rebuild fails with FileNotFound exactly when the frame has no stored segmentation. Otherwise key i is the i-th outline, split into x and y, in outline order. |
| Segmentation.CellContours | monolayer_cell_tracking/segmentation.py:50-62 | A hit returns the cached mapping and leaves the cache unchanged. A miss sets `cell_frame` to t and returns a fresh rebuild. From a coherent cache the result is always a fresh rebuild, and a successful call leaves the cache coherent. |
| Segmentation.FirstCallLoads | monolayer_cell_tracking/segmentation.py:18-19 | A freshly constructed object starts with a coherent cache (`cell_frame == -1` matches no frame), so its first `cell_contours(t)` call always loads frame t and moves the cache to it. |
| Segmentation.MissingFramePoisonsCache | monolayer_cell_tracking/segmentation.py:55-57 | When the rebuild of a missing frame fails, the cache still points at that frame with no cells. The next call for the same frame hits it and returns an empty mapping. |
| Segmentation.LookupIndex | monolayer_cell_tracking/segmentation.py:67-69 | The loop returns the first position from `from` on whose contour contains the point, and nothing when no later contour does. |
| Segmentation.Locate | monolayer_cell_tracking/segmentation.py:64-69 | Against a fresh load of frame t, the lookup fails with FileNotFound exactly when the frame is not stored. Otherwise it gives a contour of the frame that contains the point, or None exactly when no contour of the frame contains it. |
| Segmentation.FirstContaining | monolayer_cell_tracking/segmentation.py:64-69 | The lookup gives None exactly when no contour contains the point. Otherwise it gives a contour of the frame that contains it. |
| Segmentation.LookupCellContour | monolayer_cell_tracking/segmentation.py:64-69 | Through a coherent cache, the lookup equals the lookup against a fresh rebuild. On success the cache stays coherent, and a hit leaves it untouched. |
| Segmentation.FlattenLayout | monolayer_cell_tracking/segmentation.py:77-79 | The `(2m, 2)` array holds the first point of pair k at row 2k and the second point at row 2k+1. |
| Segmentation.SharedEdge | monolayer_cell_tracking/segmentation.py:71-79 | The result has even length, equal to twice the number of position pairs `(i, j)` with `d2 <= 1`. Each even row is a point of `cell_1` in contact with the next row, a point of `cell_2`. |
| Segmentation.RowPairsAppend | monolayer_cell_tracking/segmentation.py:75-78 | The inner loop visits `cell_2`'s points in order. |
| Segmentation.ContactPairsAppend | monolayer_cell_tracking/segmentation.py:74-78 | The outer loop visits `cell_1`'s points in order. The pairs of an earlier point of `cell_1` come before those of a later one. |
| Segmentation.RowPairsCount | monolayer_cell_tracking/segmentation.py:75-78 | For one point of `cell_1`, the inner loop emits one pair per position of `cell_2` within 1 px. |
| Segmentation.ContactPairsCount | monolayer_cell_tracking/segmentation.py:74-78 | Both loops together emit exactly one pair per position pair within 1 px. |
| Segmentation.ContactPairsSound | monolayer_cell_tracking/segmentation.py:74-78 | Every emitted pair joins a point of `cell_1` to a point of `cell_2` within 1 px. |
| Segmentation.RowPairsSound | monolayer_cell_tracking/segmentation.py:75-78 | Every pair the inner loop emits for p starts at p and ends at a point of `cell_2` within 1 px. |
| Segmentation.ContactPairsComplete | monolayer_cell_tracking/segmentation.py:74-78 | Every pair of points within 1 px is emitted. |
| Segmentation.RowPairsComplete | monolayer_cell_tracking/segmentation.py:75-78 | Every point of `cell_2` within 1 px of p is paired with p. |
| Segmentation.SwappedRowIsColumn | monolayer_cell_tracking/segmentation.py:74-78 | Swapping the pairs of one outer point gives that point's column of the swapped product. |
| Segmentation.PeelFirstColumn | monolayer_cell_tracking/segmentation.py:74-78 | The pairs with the first inner point split off as a column, as a multiset. |
| Segmentation.ContactPairsSwap | monolayer_cell_tracking/segmentation.py:74-78 | `shared_edge(b, a)` emits the pairs of `shared_edge(a, b)` with the two points of each exchanged, as a multiset. |
| Segmentation.SharedEdgeSwap | monolayer_cell_tracking/segmentation.py:71-79 | `shared_edge(a, b)` and `shared_edge(b, a)` have the same length, and swapping the arguments swaps the points within each pair, as a multiset; the order of the pairs differs. |
| Trajectories.Truncate | monolayer_cell_tracking/trajectories.py:22 | `int()` of a float truncates toward zero: it rounds down for nonnegative values and up for negative ones. |
| Trajectories.IndexOf | monolayer_cell_tracking/trajectories.py:22 | `t.index(t)` raises ValueError exactly when the frame is absent, and otherwise gives its first position. |
| Trajectories.ValueAt | monolayer_cell_tracking/trajectories.py:51 | A property is read at the first position of the frame, with ValueError when the frame is absent. |
| Trajectories.CentroidX | monolayer_cell_tracking/trajectories.py:20-22 | `x` is the truncated centroid x at the first occurrence of t. It has no fallback: an absent frame and a NaN value are both ValueError. |
| Trajectories.CentroidY | monolayer_cell_tracking/trajectories.py:24-26 | `y` is the truncated centroid y at the first occurrence of t, with ValueError for an absent frame or a NaN value. |
| Trajectories.IntOrSentinel | monolayer_cell_tracking/trajectories.py:30-33 | The try/except of `A`, `l1` and `l2`: the value of `int()` when reading the property and converting it both succeed, and -1 when either raises. |
| Trajectories.Area | monolayer_cell_tracking/trajectories.py:28-33 | `A` is the truncated area at the first occurrence of t, or -1 when the frame is absent or the area is NaN. |
| Trajectories.MajorAxis | monolayer_cell_tracking/trajectories.py:35-40 | `l1` is the truncated major axis at the first occurrence of t, or -1. |
| Trajectories.MinorAxis | monolayer_cell_tracking/trajectories.py:42-47 | `l2` is the truncated minor axis at the first occurrence of t, or -1. |
| Trajectories.Orientation | monolayer_cell_tracking/trajectories.py:49-51 | `theta` is the raw orientation at the first occurrence of t. An absent frame is ValueError. |
| Trajectories.Centroid | monolayer_cell_tracking/trajectories.py:20-26 | The point `(x(t, ii), y(t, ii))` exists exactly when both coordinates can be read, and then the cell exists at t. |
| Trajectories.Present | monolayer_cell_tracking/trajectories.py:72-74 | `instantaneous_trajectories(t)` holds exactly the original positions whose time list contains t, in ascending order. |
| Trajectories.SubvolumeTrajectories | monolayer_cell_tracking/trajectories.py:76-84 | A subset of the present cells, in the same order. A cell is kept exactly when its raw centroid satisfies `w0 < y < w1` and `w2 < x < w3`. NaN fails both tests. |
| Trajectories.AreaSumOver | monolayer_cell_tracking/trajectories.py:55 | The summed area distribution is nonnegative when every area is. When every area is the -1 sentinel, the sum is minus the count. |
| Trajectories.AreaSumAppend | monolayer_cell_tracking/trajectories.py:55 | The sum over two lists of cells joined is the sum of the two sums. With AreaSumSingle this fixes the value as the sum of `A(t, j)` over the list. |
| Trajectories.AreaSumSingle | monolayer_cell_tracking/trajectories.py:55 | A one-cell list sums to that cell's `A(t, j)`. |
| Trajectories.AreaSumBounds | monolayer_cell_tracking/trajectories.py:55 | When every listed `A(t, j)` lies in `[lo, hi]`, the sum lies between `lo` and `hi` times the number of cells. |
| Trajectories.AverageCellSize | monolayer_cell_tracking/trajectories.py:53-56 | The distribution has one entry per present cell, since the `isnan` filter never removes one. Its sum is nonnegative when every area is nonnegative, and minus the count when every area is the -1 sentinel. |
| Trajectories.MeanAreaBounds | monolayer_cell_tracking/trajectories.py:53-56 | The mean area lies between the smallest and the largest `A(t, j)` of the cells present at t: the sum lies between `lo` and `hi` times the count. |
| Trajectories.WithinSearchRadius | monolayer_cell_tracking/trajectories.py:89-93 | The `search_radius < d` test keeps the cell whenever the mean is NaN, that is for an empty population or a negative area sum. A cell at distance 0 is always kept. |
| Trajectories.SearchRadiusIsThreeRootMeanArea | monolayer_cell_tracking/trajectories.py:89-93 | For a nonnegative mean, the exact integer test keeps `jj` exactly when `d2 <= 9 * mean`, the square of `d <= 3 * sqrt(mean)`. |
| Trajectories.SeparationDistance | monolayer_cell_tracking/trajectories.py:58-62 | The squared distance between the two truncated centroids. It is defined exactly when both centroids can be read, and otherwise ValueError. |
| Trajectories.SeparationSymmetric | monolayer_cell_tracking/trajectories.py:58-62 | `separation_distance(t, ii, jj) == separation_distance(t, jj, ii)`, including its failures. |
| Trajectories.CandidatesAmong | monolayer_cell_tracking/trajectories.py:90-97 | The loop keeps exactly the listed cells other than `ii` that pass the radius test. It preserves ascending order, and fails exactly when some other listed cell's distance cannot be computed. |
| Trajectories.NeighborCandidates | monolayer_cell_tracking/trajectories.py:86-97 | The result never contains `ii` and is in ascending order. It holds exactly the cells present at t that pass the radius test, and fails with ValueError exactly when some present cell's distance to `ii` cannot be computed. |
| Trajectories.CandidatesSymmetric | monolayer_cell_tracking/trajectories.py:86-97 | At a fixed frame, `jj` is a candidate of `ii` exactly when `ii` is a candidate of `jj`. |
| Trajectories.NaNAreasKeepEveryCell | monolayer_cell_tracking/trajectories.py:53-93 | When no present cell has a readable area, every other present cell is a candidate. |
| Trajectories.AnyWithin | monolayer_cell_tracking/trajectories.py:104-107 | One row of the distance matrix has an entry `<= 2.0` exactly when some point of `cell_2` lies within 2 px. |
| Trajectories.AnyPairWithin | monolayer_cell_tracking/trajectories.py:104-107 | `np.any(dr <= 2.0)` holds exactly when some pair of points lies within 2 px. |
| Trajectories.AreNeighbors | monolayer_cell_tracking/trajectories.py:99-107 | False when either contour is None. Otherwise true exactly when some pair of boundary points has `dx^2 + dy^2 <= 4`. |
| Trajectories.AreNeighborsSymmetric | monolayer_cell_tracking/trajectories.py:99-107 | `are_neighbors(a, b) == are_neighbors(b, a)`. |
| Trajectories.SharedEdgeImpliesNeighbors | monolayer_cell_tracking/segmentation.py:76 | A nonempty shared edge implies the two cells are neighbours, since 1 px lies inside 2 px. |
| Trajectories.ContourOfCell | monolayer_cell_tracking/trajectories.py:112-114 | A cell's contour lookup succeeds exactly when its centroid can be read and the frame is stored. It then gives the first contour of the frame, in key order, that contains the centroid, or None when none does. |
| Trajectories.CellLookup | monolayer_cell_tracking/trajectories.py:114 | For every tracked cell jj, the lookup `neighbors` and the row loop make for jj is `lookup_cell_contour` at jj's truncated centroid: it agrees with `ContourOfCell` on every valid index. |
| Trajectories.AdjacentAmong | monolayer_cell_tracking/trajectories.py:113-116 | The loop keeps exactly the listed cells whose contour touches `cell_ii`, in order. It fails exactly when some listed cell's contour cannot be looked up. |
| Trajectories.Neighbors | monolayer_cell_tracking/trajectories.py:109-117 | The result is an ascending subsequence of `neighbor_candidates(t, ii)`, holding exactly the candidates whose contour touches that of `ii`. It fails exactly when `ii`'s contour or the candidate list cannot be computed. |
| Trajectories.NeighborsSymmetric | monolayer_cell_tracking/trajectories.py:109-117 | When both lists can be computed, `jj` is a neighbour of `ii` exactly when `ii` is a neighbour of `jj`. |
| Records.LeadingColumnsFacts | monolayer_cell_tracking/trajectories.py:66 | The eleven scalar column names are distinct, and they are exactly the columns that are not neighbour slots. |
| Records.SlotColumns | monolayer_cell_tracking/trajectories.py:67-69 | The loop adds `neigh_k` and `num_contact_pnts_k` for every k below the bound, and nothing else, all distinct. Slot k's two keys are inserted side by side, `neigh_k` first. |
| Records.DistinctConcat | monolayer_cell_tracking/trajectories.py:66-69 | Two duplicate-free lists of disjoint column names join into a duplicate-free list. |
| Records.NullTrajectoryData | monolayer_cell_tracking/trajectories.py:64-70 | The template has 11 + 2*12 distinct keys, starting with the eleven scalar ones. `neigh_k` and `num_contact_pnts_k` are keys exactly when k < 12. Every key sits at its `Rank` in the template: the scalar keys in order, then slot k's pair at positions 11 + 2k and 12 + 2k. |
| Records.RowFillsTemplate | monolayer_cell_tracking/trajectories.py:137-168 | A row with twelve slots has an entry in exactly the template's columns, so every column gets one value per row. |
| Records.ScanCandidates | monolayer_cell_tracking/trajectories.py:153-164 | The slot loop never fills a slot past the last one the template has. |
| Records.SlotsOf | monolayer_cell_tracking/trajectories.py:161-163 | Slot k holds the k-th touching candidate and its `connected_pnts.shape[0]`. |
| Records.ScanListsAdjacent | monolayer_cell_tracking/trajectories.py:153-164 | The slots the `dump_data` loop fills are `neighbors(t, ii)` in order, each with its shared-edge length. The loop fails, with KeyError, exactly when these do not fit into the slots left. |
| Records.Channels | monolayer_cell_tracking/trajectories.py:144-147 | `c1..c3` can be read exactly when the pixel vector has at least three entries and none of the first three is NaN. With three entries, the only error is ValueError, and otherwise the error is ValueError or IndexError. |
| Records.Padded | monolayer_cell_tracking/trajectories.py:165-168 | The filled slots are kept, and the slots from k up to 12 are -1. |
| Records.NeighborBlockHoldsNeighbors | monolayer_cell_tracking/trajectories.py:153-168 | The neighbour block holds `neighbors(t, ii)`, their contact counts and -1 padding when there are at most twelve. Otherwise it fails with KeyError. |
| Records.NeighborBlock | monolayer_cell_tracking/trajectories.py:153-168 | Both slot lists have twelve entries. A `neigh` slot is -1 exactly when its `num_contact_pnts` slot is, and once a slot is -1 every later slot is too. |
| Records.RowHead | monolayer_cell_tracking/trajectories.py:137-152 | The fields read before the candidate loop exist exactly when the centroid can be read, the frame is stored and the pixel means give c1..c3. An unreadable centroid is ValueError and a missing frame is FileNotFound, never KeyError. The fields are `A`, `l1`, `l2`, `theta` and c1..c3 at t, and `P` is the contour's x-length, or -1 with no contour. |
| Records.AssembleRow | monolayer_cell_tracking/trajectories.py:136-168 | A row exists exactly when the centroid can be read, the frame is stored, the pixel means give c1..c3, and `neighbors(t, ii)` can be computed with at most twelve entries. An unreadable centroid is ValueError, a missing frame is FileNotFound, and a KeyError means more than twelve neighbours. The row holds t, the centroid, `A`, `l1`, `l2`, `theta` and c1..c3 at t. Its `P` is the contour's x-length, or -1 with no contour. Its slots hold the cell's neighbours with their contact counts, then -1. |
| Records.BackgroundCentroidRow | monolayer_cell_tracking/trajectories.py:148-168 | A cell whose centroid lies on no contour gets `P == -1` and all twelve slots at -1. |
| Records.TooManyNeighborsIsKeyError | monolayer_cell_tracking/trajectories.py:162 | With more than twelve touching neighbours, and readable centroid and channels, the row fails with KeyError. |
| Records.RowsUntilFailure | monolayer_cell_tracking/trajectories.py:136-168 | The `for t` loop builds one row per time, in order, and stops at the first time whose row fails, with that error. With no failure it has a row for every time. |
| Records.RowsFor | monolayer_cell_tracking/trajectories.py:136-168 | The rows follow the time list, one per frame and in its order. The loop stops at the first frame whose row fails, with that row's error. |
| Records.CellRecords | monolayer_cell_tracking/trajectories.py:136 | A cell index at or past `num_cells()` raises IndexError at `self.trajectories[ii]` before any row is built. Every valid cell's record is the loop's rows over that cell's time list. Negative indices never reach this loop, because `dump_data` replaces them by every cell. |
| Records.OneRowPerTimestep | monolayer_cell_tracking/trajectories.py:136-139 | A complete record has exactly one row per entry of the time list, in that order, and none for a frame the list skips. |
| Records.Selection | monolayer_cell_tracking/trajectories.py:128 | The cells visited are `[ii]` for `ii >= 0`, and every cell in index order otherwise. |
| Records.DumpCells | monolayer_cell_tracking/trajectories.py:130-170 | Existing files are skipped and left unchanged. Every new file belongs to a visited cell and holds its complete record. A run that finishes has a file for every visited cell. A run that stops does so on a visited cell that had no file, with that cell's error. |
| Records.DumpData | monolayer_cell_tracking/trajectories.py:126-170 | An existing record is never touched, and every new record is complete. With `ii >= 0` only cell `ii` can get a file. A finished run leaves a file for every selected cell. |
| Records.DumpKeepsFilesComplete | monolayer_cell_tracking/trajectories.py:130-170 | Whatever a run stops on, a directory of complete records stays a directory of complete records. |
| Records.DumpCellsIdempotent | monolayer_cell_tracking/trajectories.py:132-133 | After a loop that finished, a second loop over the same cells changes nothing. |
| Records.DumpIdempotent | monolayer_cell_tracking/trajectories.py:126-133 | After a run that finished, running `dump_data` again changes nothing. |
| Records.DumpCellsAsWritten | monolayer_cell_tracking/trajectories.py:130-170 | As written, the loop never touches an existing file. Every file it writes holds exactly the rows built for its cell before any failure, and at least one row. |
| Records.DumpDataAsWritten | monolayer_cell_tracking/trajectories.py:126-170 | As written, `dump_data` never touches an existing file. |
| Records.PartialRecordSurvivesRerun | monolayer_cell_tracking/trajectories.py:130-170 | As written, a cell whose second frame has a NaN centroid is left with a one-row file. A rerun skips that cell and reports success. The corrected run writes nothing for the cell. |

## Left out

- Video decoding, cellpose model evaluation, btrack tracking, HDF5 and npz
  I/O, visualisation, the download scripts and process-level sharding. They
  are I/O or foreign code; their results enter as the parameters above.
- CSV and pandas writing and `dump_dir`. The output directory is a map from
  cell index to its rows; file names and column formatting are not modelled.
- Segmentation.FirstContaining: shapely's `within` is the abstract predicate
  `inside`. Shapely's own failure on an outline with fewer than three points
  is therefore not modelled.
- Trajectories.AreNeighbors: for an odd-length outline, numpy broadcasts an
  `(n, m)` array against an `(n-1, m')` one. It raises or compares
  broadcast rows; the model compares the zipped points.
- Trajectories.Float: infinities are not modelled. A float is finite or NaN.
- Trajectories.SearchRadiusIsThreeRootMeanArea: the exact integer test
  ignores the rounding of `np.sqrt` and of the float mean.
- Trajectories.SeparationDistance: Python reads `x(ii)`, `x(jj)`, `y(ii)`,
  `y(jj)`, while the model reads both coordinates of one cell before the
  other. Every error here is ValueError, so the result is the same.
- Records.RowHead: `theta`'s ValueError cannot arise in a row, because
  `x` has already read the same frame.
- Records.AssembleRow: the redundant `ii == jj` test of the slot loop is
  modelled, but candidates never contain `ii`.
- Records.AssembleRow: each contour lookup goes straight to the stored
  frame rather than through the cache. `LookupCellContour` shows that this
  gives the same answer from a coherent cache. Within `dump_data` the cache
  stays coherent: `cell_pixel_data` loads the frame's segmentation before
  any contour lookup, so a missing frame raises FileNotFoundError there and
  the cache is never pointed at it. Only a direct call of `cell_contours`,
  `lookup_cell_contour` or `neighbors` for a missing frame leaves the cache
  of `MissingFramePoisonsCache`.
- Records.Channels: `cell_pixel_data` and `cell_avg_pixel_vector` are image
  I/O. Their load of the stored segmentation is modelled in `RowHead`, and
  fails with FileNotFound for a missing frame. The image read and the
  pixel indexing enter as `pixelMeans`. That vector averages each pixel over
  its channels (`axis=1`), so `c1..c3` are the means of the first three
  pixels, not per-channel means. The model reads them as given.
- Records.DumpData: an I/O error while writing is not modelled.

## Findings

| source | as written | input that shows it | evidently intended | confidence | as-written member | corrected member |
|---|---|---|---|---|---|---|
| monolayer_cell_tracking/trajectories.py:169-170 | `to_csv` sits inside the `for t` loop, so the file is rewritten after every row. A row after the first that raises leaves a file with the rows before it (when the first row raises, no file is written), and the skip-if-exists test at line 132 then skips that cell on every later run. | One cell with time list [3, 4] whose x centroid at frame 4 is NaN. The first run raises ValueError and leaves a one-row file; the second run skips the cell and succeeds. | Write the record once, after the `for t` loop, so that an existing file always holds a complete record. A cell with an empty time list then gets a record with no rows. | not executed | Records.DumpDataAsWritten, Records.PartialRecordSurvivesRerun | Records.DumpData, Records.DumpKeepsFilesComplete |

=== FILE: outcomes.dfy ===
/** The exceptions the modelled cell-tracking code raises, an Option for
    `None`-returning lookups, and a Result that carries either a value or
    the exception that aborted the call. */
module Outcomes {

  /** The exception classes the modelled code raises. */
  datatype Error =
    | ValueError    // `list.index` of an absent time, or `int()` of a NaN
    | IndexError    // an index past the end of a list or array
    | KeyError      // a column name the record template does not hold
    | FileNotFound  // no stored segmentation for the requested frame

  /** Python's `None` or a value. */
  datatype Option<+T> = None | Some(value: T)

  /** A value, or the exception that aborted its computation. */
  datatype Result<+T> = Success(value: T) | Failure(error: Error) {

    predicate IsFailure() {
      Failure?
    }

    function PropagateFailure<U>(): Result<U>
      requires Failure?
    {
      Failure(error)
    }

    function Extract(): T
      requires Success?
    {
      value
    }
  }
}

=== FILE: records.dfy ===
/** The per-cell records of `dump_data`: the fixed column template, one row
    per tracked timestep with twelve neighbour slots, and the per-cell files
    kept in the output directory. */
module Records {
  import opened Outcomes
  import opened Segmentation
  import opened Trajectories

  /** `max_nNeigh`: the number of neighbour slots in a row. */
  const MaxNeighbors: nat := 12

  /** A column name of a cell's record. `Neigh(k)` is `neigh_k` and
      `NumContactPnts(k)` is `num_contact_pnts_k`. */
  datatype Column =
    | T | X | Y | A | L1 | L2 | Theta | P | C1 | C2 | C3
    | Neigh(slot: nat)
    | NumContactPnts(slot: nat)

  /** The eleven per-cell columns that come before the neighbour slots. */
  const LeadingColumns: seq<Column> := [T, X, Y, A, L1, L2, Theta, P, C1, C2, C3]

  predicate IsSlotColumn(c: Column)
  {
    c.Neigh? || c.NumContactPnts?
  }

  predicate Distinct(cols: seq<Column>)
  {
    forall i, j :: 0 <= i < j < |cols| ==> cols[i] != cols[j]
  }

  /** The position of a column in the record template: the leading columns
      in order, then `neigh_k` and `num_contact_pnts_k` side by side per slot. */
  function Rank(c: Column): nat
  {
    match c
    case T => 0 case X => 1 case Y => 2 case A => 3 case L1 => 4 case L2 => 5
    case Theta => 6 case P => 7 case C1 => 8 case C2 => 9 case C3 => 10
    case Neigh(k) => |LeadingColumns| + 2 * k
    case NumContactPnts(k) => |LeadingColumns| + 2 * k + 1
  }

  lemma LeadingColumnsFacts()
    ensures Distinct(LeadingColumns)
    ensures forall c :: c in LeadingColumns <==> !IsSlotColumn(c)
    ensures forall i :: 0 <= i < |LeadingColumns| ==> Rank(LeadingColumns[i]) == i
  {
    assert forall i :: 0 <= i < |LeadingColumns| ==>
             Rank(LeadingColumns[i]) == i && !IsSlotColumn(LeadingColumns[i]);
    forall c | !IsSlotColumn(c) ensures c in LeadingColumns {
      assert LeadingColumns[Rank(c)] == c;
    }
  }

  /** The neighbour columns of slots `0 .. n-1`, inserted pairwise in slot order. */
  function SlotColumns(n: nat): (cols: seq<Column>)
    ensures |cols| == 2 * n
    ensures forall c :: c in cols <==> IsSlotColumn(c) && c.slot < n
    ensures forall k :: 0 <= k < n ==> cols[2 * k] == Neigh(k) && cols[2 * k + 1] == NumContactPnts(k)
    ensures Distinct(cols)
  {
    var cols := seq(2 * n, (i: nat) => if i % 2 == 0 then Neigh(i / 2) else NumContactPnts(i / 2));
    forall k | 0 <= k < n ensures cols[2 * k] == Neigh(k) && cols[2 * k + 1] == NumContactPnts(k) {
      assert (2 * k) % 2 == 0 && (2 * k) / 2 == k;
      assert (2 * k + 1) % 2 == 1 && (2 * k + 1) / 2 == k;
    }
    forall c | IsSlotColumn(c) && c.slot < n ensures c in cols {
      var i := if c.Neigh? then 2 * c.slot else 2 * c.slot + 1;
      assert cols[i] == c;
    }
    forall i, j | 0 <= i < j < |cols| ensures cols[i] != cols[j] {
      assert i == 2 * (i / 2) + i % 2 && j == 2 * (j / 2) + j % 2;
    }
    cols
  }

  lemma DistinctConcat(a: seq<Column>, b: seq<Column>)
    requires Distinct(a) && Distinct(b)
    requires forall c :: c in a ==> c !in b
    ensures Distinct(a + b)
  {
    forall i, j | 0 <= i < j < |a + b| ensures (a + b)[i] != (a + b)[j] {
      if j < |a| {
        assert (a + b)[i] == a[i] && (a + b)[j] == a[j];
      } else if i < |a| {
        assert (a + b)[i] == a[i] && a[i] in a;
        assert (a + b)[j] == b[j - |a|] && b[j - |a|] in b;
      } else {
        assert (a + b)[i] == b[i - |a|] && (a + b)[j] == b[j - |a|];
      }
    }
  }

  /** `null_trajectory_data()`: the keys of an empty record, in insertion order. */
  function NullTrajectoryData(): (cols: seq<Column>)
    ensures |cols| == |LeadingColumns| + 2 * MaxNeighbors
    ensures cols[..|LeadingColumns|] == LeadingColumns
    ensures Distinct(cols)
    ensures forall c :: c in cols <==> !IsSlotColumn(c) || c.slot < MaxNeighbors
    ensures forall c :: c in cols ==> Rank(c) < |cols| && cols[Rank(c)] == c
  {
    var slots := SlotColumns(MaxNeighbors);
    LeadingColumnsFacts();
    DistinctConcat(LeadingColumns, slots);
    var cols := LeadingColumns + slots;
    forall c | c in cols ensures Rank(c) < |cols| && cols[Rank(c)] == c {
      if IsSlotColumn(c) {
        var k := c.slot;
        var i := if c.Neigh? then 2 * k else 2 * k + 1;
        assert Rank(c) == |LeadingColumns| + i && slots[i] == c;
        assert cols[|LeadingColumns| + i] == slots[i];
      } else {
        var i :| 0 <= i < |LeadingColumns| && LeadingColumns[i] == c;
        assert cols[i] == LeadingColumns[i];
      }
    }
    cols
  }

  /** The value of one record entry. */
  datatype Value = Int(n: int) | Angle(theta: Float)

  /** One line of a cell's record. `perimeter` is the `P` column. */
  datatype Row = Row(t: nat, x: int, y: int, area: int, majorAxis: int, minorAxis: int, theta: Float,
                     perimeter: int, c1: int, c2: int, c3: int, neigh: seq<int>, contacts: seq<int>)

  /** The entry of `row` under column `c`, if the row has one. */
  function Field(row: Row, c: Column): Option<Value>
  {
    match c
    case T => Some(Int(row.t))
    case X => Some(Int(row.x))
    case Y => Some(Int(row.y))
    case A => Some(Int(row.area))
    case L1 => Some(Int(row.majorAxis))
    case L2 => Some(Int(row.minorAxis))
    case Theta => Some(Angle(row.theta))
    case P => Some(Int(row.perimeter))
    case C1 => Some(Int(row.c1))
    case C2 => Some(Int(row.c2))
    case C3 => Some(Int(row.c3))
    case Neigh(k) => if k < |row.neigh| then Some(Int(row.neigh[k])) else None
    case NumContactPnts(k) => if k < |row.contacts| then Some(Int(row.contacts[k])) else None
  }

  /** A row with twelve slots has an entry in exactly the template's columns,
      so the per-cell table is rectangular. */
  lemma RowFillsTemplate(row: Row)
    requires |row.neigh| == MaxNeighbors && |row.contacts| == MaxNeighbors
    ensures forall c :: Field(row, c).Some? <==> c in NullTrajectoryData()
  {
    var cols := NullTrajectoryData();
    forall c ensures Field(row, c).Some? <==> c in cols {
      if IsSlotColumn(c) {
        assert Field(row, c).Some? <==> c.slot < MaxNeighbors;
      }
    }
  }

  /** `connected_pnts.shape[0]`: the length of the shared edge of two located cells. */
  function ContactCount(c1: Option<Contour>, c2: Result<Option<Contour>>): nat
  {
    if c1.Some? && c2.Success? && c2.value.Some? then |SharedEdge(c1.value, c2.value.value)| else 0
  }

  /** One filled neighbour slot. */
  datatype Slot = Slot(neighbor: nat, contacts: nat)

  /** The candidate loop of `dump_data`, filling slots from `slot` onwards,
      with `look` finding each cell's contour. Writing slot 12 looks up a
      column the template does not have. */
  function ScanCandidates(look: nat -> Result<Option<Contour>>, ii: nat, js: seq<nat>, slot: nat): (r: Result<seq<Slot>>)
    ensures r.Success? ==> |r.value| == 0 || slot + |r.value| <= MaxNeighbors
    decreases |js|
  {
    if |js| == 0 then Success([])
    else if ii == js[0] then ScanCandidates(look, ii, js[1..], slot)
    else
      var cell1 :- look(ii);
      var cell2 :- look(js[0]);
      if AreNeighbors(cell1, cell2) then
        var count := ContactCount(cell1, Success(cell2));
        if Neigh(slot) !in NullTrajectoryData() then Failure(KeyError)
        else
          var rest :- ScanCandidates(look, ii, js[1..], slot + 1);
          Success([Slot(js[0], count)] + rest)
      else ScanCandidates(look, ii, js[1..], slot)
  }

  /** The slots `adj` should fill: each cell with the length of its shared
      edge with `own`. */
  function SlotsOf(look: nat -> Result<Option<Contour>>, own: Option<Contour>, adj: seq<nat>): (slots: seq<Slot>)
    ensures |slots| == |adj|
    ensures forall k :: 0 <= k < |adj| ==> slots[k] == Slot(adj[k], ContactCount(own, look(adj[k])))
    decreases |adj|
  {
    if |adj| == 0 then []
    else
      var rest := SlotsOf(look, own, adj[1..]);
      assert forall k :: 1 <= k < |adj| ==> adj[k] == adj[1..][k - 1];
      [Slot(adj[0], ContactCount(own, look(adj[0])))] + rest
  }

  /** The slots the candidate loop fills are the touching candidates in
      candidate order, each with its shared-edge length; the loop fails with
      KeyError exactly when they do not fit into the slots left. */
  lemma {:induction false} ScanListsAdjacent(look: nat -> Result<Option<Contour>>, ii: nat, js: seq<nat>, slot: nat)
    requires ii !in js && slot <= MaxNeighbors
    requires look(ii).Success? && AdjacentAmong(look, look(ii).value, js).Success?
    ensures var adj := AdjacentAmong(look, look(ii).value, js).value;
            var scan := ScanCandidates(look, ii, js, slot);
            && (scan.Success? <==> slot + |adj| <= MaxNeighbors)
            && (scan.Failure? ==> scan.error == KeyError)
            && (scan.Success? ==> scan.value == SlotsOf(look, look(ii).value, adj))
    decreases |js|
  {
    if |js| > 0 {
      var own := look(ii).value;
      assert js[0] in js && ii !in js[1..];
      var rest := AdjacentAmong(look, own, js[1..]).value;
      if AreNeighbors(own, look(js[0]).value) && slot < MaxNeighbors {
        ScanListsAdjacent(look, ii, js[1..], slot + 1);
        var adj := [js[0]] + rest;
        assert AdjacentAmong(look, own, js).value == adj;
        assert adj[1..] == rest;
      } else if !AreNeighbors(own, look(js[0]).value) {
        ScanListsAdjacent(look, ii, js[1..], slot);
      }
    }
  }

  /** `int(vec[k])` for one of the first three entries of the pixel vector. */
  function Channel(vec: seq<Float>, k: nat): Result<int>
  {
    if k < |vec| then IntOf(vec[k]) else Failure(IndexError)
  }

  /** `c1`, `c2`, `c3`, read in that order. */
  function Channels(vec: seq<Float>): (r: Result<(int, int, int)>)
    ensures r.Success? <==> |vec| >= 3 && vec[0].Finite? && vec[1].Finite? && vec[2].Finite?
    ensures r.Failure? && |vec| >= 3 ==> r.error == ValueError
    ensures r.Failure? ==> r.error == ValueError || r.error == IndexError
  {
    var c1 :- Channel(vec, 0);
    var c2 :- Channel(vec, 1);
    var c3 :- Channel(vec, 2);
    Success((c1, c2, c3))
  }

  /** `vals` followed by -1 up to the twelfth slot. */
  function Padded(vals: seq<int>): (p: seq<int>)
    requires |vals| <= MaxNeighbors
    ensures |p| == MaxNeighbors
    ensures forall k :: 0 <= k < |vals| ==> p[k] == vals[k]
    ensures forall k :: |vals| <= k < MaxNeighbors ==> p[k] == -1
  {
    vals + seq(MaxNeighbors - |vals|, _ => -1)
  }

  function SlotNeighbors(slots: seq<Slot>): (r: seq<int>)
    ensures |r| == |slots| && forall k :: 0 <= k < |slots| ==> r[k] == slots[k].neighbor
  {
    seq(|slots|, k requires 0 <= k < |slots| => slots[k].neighbor)
  }

  function SlotContacts(slots: seq<Slot>): (r: seq<int>)
    ensures |r| == |slots| && forall k :: 0 <= k < |slots| ==> r[k] == slots[k].contacts
  {
    seq(|slots|, k requires 0 <= k < |slots| => slots[k].contacts)
  }

  /** `neigh` and `contacts` hold the cells of `adj` with their shared-edge
      lengths in the first slots, and -1 in every slot after them. */
  predicate SlotsHold(look: nat -> Result<Option<Contour>>, own: Option<Contour>, adj: seq<nat>,
                      neigh: seq<int>, contacts: seq<int>)
  {
    && |adj| <= MaxNeighbors && |neigh| == MaxNeighbors && |contacts| == MaxNeighbors
    && (forall k :: 0 <= k < |adj| ==> neigh[k] == adj[k] && contacts[k] == ContactCount(own, look(adj[k])))
    && (forall k :: |adj| <= k < MaxNeighbors ==> neigh[k] == -1 && contacts[k] == -1)
  }

  /** The neighbour columns of a row: the candidate loop, which fills a slot
      for each touching candidate, then the -1 padding up to twelve slots. */
  function NeighborBlock(look: nat -> Result<Option<Contour>>, ii: nat, candidates: seq<nat>): (r: Result<(seq<int>, seq<int>)>)
    ensures r.Success? ==> |r.value.0| == MaxNeighbors && |r.value.1| == MaxNeighbors
    ensures r.Success? ==> forall k :: 0 <= k < MaxNeighbors ==> (r.value.0[k] == -1 <==> r.value.1[k] == -1)
    ensures r.Success? ==> forall k :: 0 <= k < MaxNeighbors - 1 && r.value.0[k] == -1 ==> r.value.0[k + 1] == -1
  {
    var slots :- ScanCandidates(look, ii, candidates, 0);
    Success((Padded(SlotNeighbors(slots)), Padded(SlotContacts(slots))))
  }

  /** The neighbour block of a row holds `neighbors(t, ii)` when it has at
      most twelve entries, and fails with KeyError otherwise. */
  lemma NeighborBlockHoldsNeighbors(exp: Experiment, t: nat, ii: nat)
    requires ii < |exp.tracks| && Neighbors(exp, t, ii).Success?
    ensures var look := CellLookup(exp, t);
            var b := NeighborBlock(look, ii, NeighborCandidates(exp.tracks, t, ii).value);
            var adj := Neighbors(exp, t, ii).value;
            && (b.Success? <==> |adj| <= MaxNeighbors)
            && (b.Failure? ==> b.error == KeyError)
            && (b.Success? ==> SlotsHold(look, ContourOfCell(exp, t, ii).value, adj, b.value.0, b.value.1))
  {
    var look := CellLookup(exp, t);
    var own := ContourOfCell(exp, t, ii).value;
    assert look(ii) == Success(own);
    var candidates := NeighborCandidates(exp.tracks, t, ii).value;
    assert Neighbors(exp, t, ii) == AdjacentAmong(look, own, candidates);
    ScanListsAdjacent(look, ii, candidates, 0);
  }

  /** The fields of a row that `dump_data` reads before the candidate loop. */
  datatype Head = Head(x: int, y: int, area: int, majorAxis: int, minorAxis: int, theta: Float,
                       c1: int, c2: int, c3: int, perimeter: int)

  /** The part of an iteration of the `for t` loop before the candidate loop, in the source's order
      of evaluation: the accessors at `t`, the pixel means (whose read of the
      stored segmentation raises for a missing frame), and the length of the
      cell's contour, or -1 when the centroid lies on no contour. */
  function RowHead(exp: Experiment, t: nat, ii: nat): (r: Result<Head>)
    requires ii < |exp.tracks|
    ensures r.Success? <==>
              && Centroid(exp.tracks, t, ii).Success?
              && t in exp.store
              && Channels(exp.pixelMeans(t, Centroid(exp.tracks, t, ii).value)).Success?
    ensures Centroid(exp.tracks, t, ii).Failure? ==> r == Failure(ValueError)
    ensures Centroid(exp.tracks, t, ii).Success? && t !in exp.store ==> r == Failure(FileNotFound)
    ensures r.Failure? ==> r.error != KeyError
    ensures r.Success? ==> Centroid(exp.tracks, t, ii) == Success(Pixel(r.value.x, r.value.y))
    ensures r.Success? ==>
              && r.value.area == Area(exp.tracks, t, ii)
              && r.value.majorAxis == MajorAxis(exp.tracks, t, ii)
              && r.value.minorAxis == MinorAxis(exp.tracks, t, ii)
    ensures r.Success? ==> Orientation(exp.tracks, t, ii) == Success(r.value.theta)
    ensures r.Success? ==>
              Channels(exp.pixelMeans(t, Pixel(r.value.x, r.value.y))) == Success((r.value.c1, r.value.c2, r.value.c3))
    ensures r.Success? ==> ContourOfCell(exp, t, ii).Success?
    ensures r.Success? ==>
              r.value.perimeter == (if ContourOfCell(exp, t, ii).value.Some?
                                    then |ContourOfCell(exp, t, ii).value.value.xs| else -1)
  {
    var x :- CentroidX(exp.tracks, t, ii);
    var y :- CentroidY(exp.tracks, t, ii);
    var area := Area(exp.tracks, t, ii);
    var l1 := MajorAxis(exp.tracks, t, ii);
    var l2 := MinorAxis(exp.tracks, t, ii);
    assert Orientation(exp.tracks, t, ii).Success? by {
      assert FirstAt(exp.tracks[ii].t, t, IndexOf(exp.tracks[ii].t, t).value);
    }
    var theta := Orientation(exp.tracks, t, ii).value;
    var _ :- LoadContours(exp.store, t);
    var c :- Channels(exp.pixelMeans(t, Pixel(x, y)));
    var cell := Locate(exp.store, exp.inside, t, Pixel(x, y)).value;
    assert ContourOfCell(exp, t, ii) == Success(cell);
    var perimeter := if cell.Some? then |cell.value.xs| else -1;
    Success(Head(x, y, area, l1, l2, theta, c.0, c.1, c.2, perimeter))
  }

  /** One iteration of the `for t` loop of `dump_data`: the fields read
      first, then the neighbours of `ii` at `t` with their shared-edge
      lengths, padded to twelve slots with -1. */
  function AssembleRow(exp: Experiment, t: nat, ii: nat): (r: Result<Row>)
    requires ii < |exp.tracks|
    ensures r.Success? <==>
              && Centroid(exp.tracks, t, ii).Success?
              && t in exp.store
              && Channels(exp.pixelMeans(t, Centroid(exp.tracks, t, ii).value)).Success?
              && Neighbors(exp, t, ii).Success? && |Neighbors(exp, t, ii).value| <= MaxNeighbors
    ensures Centroid(exp.tracks, t, ii).Failure? ==> r == Failure(ValueError)
    ensures Centroid(exp.tracks, t, ii).Success? && t !in exp.store ==> r == Failure(FileNotFound)
    ensures r.Failure? && r.error == KeyError ==>
              Neighbors(exp, t, ii).Success? && |Neighbors(exp, t, ii).value| > MaxNeighbors
    ensures r.Success? ==> r.value.t == t && t in exp.tracks[ii].t
    ensures r.Success? ==> Centroid(exp.tracks, t, ii) == Success(Pixel(r.value.x, r.value.y))
    ensures r.Success? ==>
              && r.value.area == Area(exp.tracks, t, ii)
              && r.value.majorAxis == MajorAxis(exp.tracks, t, ii)
              && r.value.minorAxis == MinorAxis(exp.tracks, t, ii)
    ensures r.Success? ==> Orientation(exp.tracks, t, ii) == Success(r.value.theta)
    ensures r.Success? ==>
              Channels(exp.pixelMeans(t, Pixel(r.value.x, r.value.y))) == Success((r.value.c1, r.value.c2, r.value.c3))
    ensures r.Success? ==>
              r.value.perimeter == (if ContourOfCell(exp, t, ii).value.Some?
                                    then |ContourOfCell(exp, t, ii).value.value.xs| else -1)
    ensures r.Success? ==>
              SlotsHold(CellLookup(exp, t), ContourOfCell(exp, t, ii).value, Neighbors(exp, t, ii).value,
                        r.value.neigh, r.value.contacts)
  {
    var h :- RowHead(exp, t, ii);
    var candidates :- NeighborCandidates(exp.tracks, t, ii);
    assert Neighbors(exp, t, ii).Success?;
    NeighborBlockHoldsNeighbors(exp, t, ii);
    var block :- NeighborBlock(CellLookup(exp, t), ii, candidates);
    Success(Row(t, h.x, h.y, h.area, h.majorAxis, h.minorAxis, h.theta, h.perimeter, h.c1, h.c2, h.c3, block.0, block.1))
  }

  /** A cell whose centroid lies on no contour has no perimeter and no
      neighbours: `P` and every slot hold -1. */
  lemma BackgroundCentroidRow(exp: Experiment, t: nat, ii: nat)
    requires ii < |exp.tracks|
    requires AssembleRow(exp, t, ii).Success?
    requires ContourOfCell(exp, t, ii) == Success(None)
    ensures var row := AssembleRow(exp, t, ii).value;
            row.perimeter == -1 &&
            forall k :: 0 <= k < MaxNeighbors ==> row.neigh[k] == -1 && row.contacts[k] == -1
  {
  }

  /** With more than twelve touching neighbours, once the fields read before
      the neighbour block succeed, the row fails on the missing thirteenth
      slot column. */
  lemma TooManyNeighborsIsKeyError(exp: Experiment, t: nat, ii: nat)
    requires ii < |exp.tracks|
    requires Neighbors(exp, t, ii).Success? && |Neighbors(exp, t, ii).value| > MaxNeighbors
    requires Centroid(exp.tracks, t, ii).Success?
    requires Channels(exp.pixelMeans(t, Centroid(exp.tracks, t, ii).value)).Success?
    ensures AssembleRow(exp, t, ii) == Failure(KeyError)
  {
    NeighborBlockHoldsNeighbors(exp, t, ii);
    assert Orientation(exp.tracks, t, ii).Success? by {
      var k := IndexOf(exp.tracks[ii].t, t).value;
      assert FirstAt(exp.tracks[ii].t, t, k);
    }
  }

  /** The rows of cell `ii` for the times `ts`, and the error that stopped
      the loop, if any. */
  datatype Progress = Progress(rows: seq<Row>, failure: Option<Error>)

  /** The `for t` loop over `ts` with `assemble` building each row: the
      rows up to the first failing time, and that failure. */
  function RowsUntilFailure(assemble: nat -> Result<Row>, ts: seq<nat>): (p: Progress)
    ensures |p.rows| <= |ts|
    ensures forall k :: 0 <= k < |p.rows| ==> assemble(ts[k]) == Success(p.rows[k])
    ensures p.failure.None? <==> |p.rows| == |ts|
    ensures p.failure.Some? ==> assemble(ts[|p.rows|]) == Failure(p.failure.value)
    decreases |ts|
  {
    if |ts| == 0 then Progress([], None)
    else
      var r := assemble(ts[0]);
      if r.Failure? then Progress([], Some(r.error))
      else
        var rest := RowsUntilFailure(assemble, ts[1..]);
        assert forall k :: 1 <= k < |ts| ==> ts[k] == ts[1..][k - 1];
        Progress([r.value] + rest.rows, rest.failure)
  }

  /** The rows of cell `ii` for the times `ts`. */
  function RowsFor(exp: Experiment, ii: nat, ts: seq<nat>): (p: Progress)
    requires ii < |exp.tracks|
    ensures |p.rows| <= |ts|
    ensures forall k :: 0 <= k < |p.rows| ==> AssembleRow(exp, ts[k], ii) == Success(p.rows[k])
    ensures forall k :: 0 <= k < |p.rows| ==> p.rows[k].t == ts[k]
    ensures p.failure.None? <==> |p.rows| == |ts|
    ensures p.failure.Some? ==> AssembleRow(exp, ts[|p.rows|], ii) == Failure(p.failure.value)
  {
    RowsUntilFailure((t: nat) => AssembleRow(exp, t, ii), ts)
  }

  /** A cell's complete record: one row per entry of its time list, in that
      order, with none for a frame the list skips. */
  lemma OneRowPerTimestep(exp: Experiment, ii: nat)
    requires ii < |exp.tracks|
    requires RowsFor(exp, ii, exp.tracks[ii].t).failure.None?
    ensures var rows := RowsFor(exp, ii, exp.tracks[ii].t).rows;
            |rows| == |exp.tracks[ii].t| &&
            (forall k :: 0 <= k < |rows| ==> rows[k].t == exp.tracks[ii].t[k]) &&
            (forall t: nat :: t !in exp.tracks[ii].t ==> forall row :: row in rows ==> row.t != t)
  {
  }

  /** The cells `dump_data(ii)` visits: `[ii]` for `ii >= 0`, every cell otherwise. */
  function Selection(ii: int, numCells: nat): (s: seq<int>)
    ensures 0 <= ii ==> s == [ii]
    ensures ii < 0 ==> |s| == numCells && forall k :: 0 <= k < numCells ==> s[k] == k
  {
    if 0 <= ii then [ii] else seq(numCells, k => k)
  }

  /** The output directory: the record written for each cell. */
  type Files = map<int, seq<Row>>

  /** The file of cell `ii` holds its complete record. */
  predicate CompleteFile(exp: Experiment, ii: int, rows: seq<Row>)
  {
    0 <= ii < |exp.tracks| && RowsFor(exp, ii, exp.tracks[ii].t) == Progress(rows, None)
  }

  predicate AllComplete(exp: Experiment, files: Files)
  {
    forall ii :: ii in files ==> CompleteFile(exp, ii, files[ii])
  }

  /** What the `for t` loop produces for each cell index; an index past the
      last track raises IndexError before any row. */
  function CellRecords(exp: Experiment): (record: int -> Progress)
    ensures forall ii: int :: 0 <= ii < |exp.tracks| ==> record(ii) == RowsFor(exp, ii, exp.tracks[ii].t)
    ensures forall ii: int :: !(0 <= ii < |exp.tracks|) ==> record(ii) == Progress([], Some(IndexError))
  {
    (ii: int) => if 0 <= ii < |exp.tracks| then RowsFor(exp, ii, exp.tracks[ii].t) else Progress([], Some(IndexError))
  }

  /** The directory after a run, and the error that aborted it, if any. */
  datatype Dump = Dump(files: Files, failure: Option<Error>)

  /** The `for ii` loop of `dump_data` with the record written once, after
      every row of the cell has been assembled; `record` gives each cell's rows. */
  function DumpCells(record: int -> Progress, files: Files, cells: seq<int>): (d: Dump)
    ensures forall ii :: ii in files ==> ii in d.files && d.files[ii] == files[ii]
    ensures forall ii :: ii in d.files && ii !in files ==> ii in cells && record(ii) == Progress(d.files[ii], None)
    ensures d.failure.None? ==> forall ii :: ii in cells ==> ii in d.files
    ensures d.failure.Some? ==> exists ii :: ii in cells && ii !in files && record(ii).failure == d.failure
    decreases |cells|
  {
    if |cells| == 0 then Dump(files, None)
    else
      var ii := cells[0];
      assert ii in cells && forall j :: j in cells[1..] ==> j in cells;
      if ii in files then DumpCells(record, files, cells[1..])
      else
        var p := record(ii);
        if p.failure.Some? then Dump(files, p.failure)
        else DumpCells(record, files[ii := p.rows], cells[1..])
  }

  /** `dump_data(ii)` with the record of a cell written only once it is complete. */
  function DumpData(exp: Experiment, files: Files, ii: int): (d: Dump)
    ensures forall jj :: jj in files ==> jj in d.files && d.files[jj] == files[jj]
    ensures forall jj :: jj in d.files && jj !in files ==> CompleteFile(exp, jj, d.files[jj])
    ensures 0 <= ii ==> forall jj :: jj in d.files && jj !in files ==> jj == ii
    ensures d.failure.None? && 0 <= ii ==> ii in d.files
    ensures d.failure.None? && ii < 0 ==> forall jj :: 0 <= jj < |exp.tracks| ==> jj in d.files
  {
    var cells := Selection(ii, |exp.tracks|);
    forall jj | ii < 0 && 0 <= jj < |exp.tracks| ensures jj in cells {
      assert cells[jj] == jj;
    }
    DumpCells(CellRecords(exp), files, cells)
  }

  /** Every record in the directory is complete, whatever a run stops on. */
  lemma DumpKeepsFilesComplete(exp: Experiment, files: Files, ii: int)
    requires AllComplete(exp, files)
    ensures AllComplete(exp, DumpData(exp, files, ii).files)
  {
  }

  /** A run that finished leaves nothing for the next run to do. */
  lemma {:induction false} DumpCellsIdempotent(record: int -> Progress, files: Files, cells: seq<int>)
    requires DumpCells(record, files, cells).failure.None?
    ensures var out := DumpCells(record, files, cells).files;
            DumpCells(record, out, cells) == Dump(out, None)
    decreases |cells|
  {
    if |cells| > 0 {
      var out := DumpCells(record, files, cells).files;
      var ii := cells[0];
      if ii in files {
        DumpCellsIdempotent(record, files, cells[1..]);
      } else {
        DumpCellsIdempotent(record, files[ii := record(ii).rows], cells[1..]);
      }
      assert ii in out;
    }
  }

  lemma DumpIdempotent(exp: Experiment, files: Files, ii: int)
    requires DumpData(exp, files, ii).failure.None?
    ensures var out := DumpData(exp, files, ii).files;
            DumpData(exp, out, ii) == Dump(out, None)
  {
    DumpCellsIdempotent(CellRecords(exp), files, Selection(ii, |exp.tracks|));
  }

  /** The `for ii` loop of `dump_data` as written: the record is rewritten at
      the end of every row, so a failing row leaves the rows before it. */
  function DumpCellsAsWritten(record: int -> Progress, files: Files, cells: seq<int>): (d: Dump)
    ensures forall ii :: ii in files ==> ii in d.files && d.files[ii] == files[ii]
    ensures forall ii :: ii in d.files && ii !in files ==>
              ii in cells && d.files[ii] == record(ii).rows && |d.files[ii]| > 0
    decreases |cells|
  {
    if |cells| == 0 then Dump(files, None)
    else
      var ii := cells[0];
      assert forall j :: j in cells[1..] ==> j in cells;
      if ii in files then DumpCellsAsWritten(record, files, cells[1..])
      else
        var p := record(ii);
        var written := if |p.rows| > 0 then files[ii := p.rows] else files;
        if p.failure.Some? then Dump(written, p.failure)
        else DumpCellsAsWritten(record, written, cells[1..])
  }

  function DumpDataAsWritten(exp: Experiment, files: Files, ii: int): (d: Dump)
    ensures forall jj :: jj in files ==> jj in d.files && d.files[jj] == files[jj]
  {
    DumpCellsAsWritten(CellRecords(exp), files, Selection(ii, |exp.tracks|))
  }

  /** A single cell, present at frames 3 and 4, whose x centroid at frame 4 is NaN. */
  function HalfReadableCell(): Experiment
  {
    var one := Finite(1.0);
    var tr := Trajectory([3, 4], [one, NaN], [one, one], [one, one], [one, one], [one, one], [one, one]);
    Experiment([tr], map[3 := [], 4 := []], (p, c) => false, (t, p) => [Finite(0.0), Finite(0.0), Finite(0.0)])
  }

  /** As written, the first run stops at frame 4 but leaves a one-row record
      for the cell; the second run skips the cell because its file exists and
      reports success with the record still incomplete. The corrected run
      writes nothing for the cell. */
  lemma PartialRecordSurvivesRerun()
    ensures var exp := HalfReadableCell();
            var first := DumpDataAsWritten(exp, map[], 0);
            && first.failure == Some(ValueError)
            && 0 in first.files && |first.files[0]| == 1 < |exp.tracks[0].t|
            && !AllComplete(exp, first.files)
            && DumpDataAsWritten(exp, first.files, 0) == Dump(first.files, None)
            && DumpData(exp, map[], 0) == Dump(map[], Some(ValueError))
  {
    var exp := HalfReadableCell();
    var tr := exp.tracks[0];
    assert IndexOf(tr.t, 3) == Success(0);
    assert IndexOf(tr.t, 4) == Success(1) by {
      assert IndexOf(tr.t[1..], 4) == Success(0);
    }
    assert CentroidX(exp.tracks, 4, 0) == Failure(ValueError);
    assert AssembleRow(exp, 4, 0) == Failure(ValueError);
    assert Present(exp.tracks, 3) == [0];
    assert NeighborCandidates(exp.tracks, 3, 0) == Success([]);
    assert AssembleRow(exp, 3, 0).Success?;
    var p := RowsFor(exp, 0, tr.t);
    assert p.failure == Some(ValueError) && |p.rows| == 1;
  }
}

=== FILE: segmentation.dfy ===
/** Contour geometry of one segmented frame: the single-frame contour store,
    the "first contour containing this point" lookup, and `shared_edge`, the
    cross product of two outlines that keeps the point pairs within 1 px. */
module Segmentation {
  import opened Outcomes

  /** An integer pixel coordinate; cellpose outlines are integer arrays. */
  datatype Pixel = Pixel(x: int, y: int)

  function Square(d: int): nat
  {
    d * d
  }

  /** Squared Euclidean distance. Every tolerance test of the source compares
      `sqrt(dx**2 + dy**2)` with a small constant; with an integer radicand that
      is the same as comparing the radicand with the constant's square. */
  function SqDist(p: Pixel, q: Pixel): nat
  {
    Square(p.x - q.x) + Square(p.y - q.y)
  }

  lemma SqDistSymmetric(p: Pixel, q: Pixel)
    ensures SqDist(p, q) == SqDist(q, p)
  {
    assert Square(p.x - q.x) == Square(q.x - p.x);
    assert Square(p.y - q.y) == Square(q.y - p.y);
  }

  /** `shared_edge` keeps a pair when `sqrt(d2) <= 1`, that is when `d2 <= 1`. */
  const ContactRadius2: nat := 1

  predicate InContact(p: Pixel, q: Pixel)
  {
    SqDist(p, q) <= ContactRadius2
  }

  lemma InContactSymmetric(p: Pixel, q: Pixel)
    ensures InContact(p, q) <==> InContact(q, p)
  {
    SqDistSymmetric(p, q);
  }

  /** One entry of the contour store: the `x` and `y` arrays of a cell's outline. */
  datatype Contour = Contour(xs: seq<int>, ys: seq<int>) {

    /** The outline's points, pairing the two arrays as Python's `zip` does. */
    function Points(): (ps: seq<Pixel>)
      ensures |ps| == if |xs| <= |ys| then |xs| else |ys|
      ensures forall k :: 0 <= k < |ps| ==> ps[k] == Pixel(xs[k], ys[k])
    {
      var n := if |xs| <= |ys| then |xs| else |ys|;
      seq(n, k requires 0 <= k < n => Pixel(xs[k], ys[k]))
    }
  }

  /** `s[::2]`: the entries of `s` at even positions. */
  function EveryOther(s: seq<int>): seq<int>
    decreases |s|
  {
    if |s| <= 1 then s else [s[0]] + EveryOther(s[2..])
  }

  lemma {:induction false} EveryOtherPicksEvenPositions(s: seq<int>)
    ensures |EveryOther(s)| == (|s| + 1) / 2
    ensures forall k :: 0 <= k < |EveryOther(s)| ==> EveryOther(s)[k] == s[2 * k]
    decreases |s|
  {
    if |s| > 1 {
      var rest := EveryOther(s[2..]);
      EveryOtherPicksEvenPositions(s[2..]);
      assert EveryOther(s) == [s[0]] + rest;
      forall k | 0 <= k < |EveryOther(s)|
        ensures EveryOther(s)[k] == s[2 * k]
      {
        if k > 0 {
          assert EveryOther(s)[k] == rest[k - 1] == s[2..][2 * (k - 1)];
        }
      }
    }
  }

  /** The store entry built from one flattened outline `o` = x0, y0, x1, y1, ...:
      `x` is `o[::2]` and `y` is `o[1::2]`. */
  function FromOutline(o: seq<int>): (c: Contour)
    ensures |c.xs| == (|o| + 1) / 2 && |c.ys| == |o| / 2
    ensures |c.xs| == |c.ys| <==> |o| % 2 == 0
    ensures forall k :: 0 <= k < |c.xs| ==> c.xs[k] == o[2 * k]
    ensures forall k :: 0 <= k < |c.ys| ==> c.ys[k] == o[2 * k + 1]
    ensures |c.Points()| == |o| / 2
  {
    var odd := if |o| == 0 then [] else o[1..];
    EveryOtherPicksEvenPositions(o);
    EveryOtherPicksEvenPositions(odd);
    Contour(EveryOther(o), EveryOther(odd))
  }

  /** The segmentation files on disk: for each stored frame, the list of
      flattened outlines that `outlines_list` extracts from its mask. */
  type OutlineStore = map<nat, seq<seq<int>>>

  /** Rebuilding the store for frame `t`. Contour `i` comes from the `i`-th
      outline: keys are enumeration positions, not mask labels. */
  function LoadContours(store: OutlineStore, t: nat): (r: Result<seq<Contour>>)
    ensures r.Failure? <==> t !in store
    ensures r.Failure? ==> r.error == FileNotFound
    ensures r.Success? ==> |r.value| == |store[t]|
    ensures r.Success? ==> forall i :: 0 <= i < |r.value| ==> r.value[i] == FromOutline(store[t][i])
  {
    if t in store then
      Success(seq(|store[t]|, i requires 0 <= i < |store[t]| => FromOutline(store[t][i])))
    else
      Failure(FileNotFound)
  }

  /** The single-frame cache: `cell_frame` and `cells`. */
  datatype ContourCache = ContourCache(frame: int, cells: seq<Contour>)

  /** The state after construction, `cell_frame == -1`, which no frame index
      matches (Python starts `cells` at `None`; it is never returned). */
  const EmptyCache := ContourCache(-1, [])

  /** The cache holds what a fresh load of its frame gives. */
  predicate Coherent(cache: ContourCache, store: OutlineStore)
  {
    cache.frame < 0 || LoadContours(store, cache.frame as nat) == Success(cache.cells)
  }

  /** `cell_contours(t)`: a hit returns the cached mapping and leaves the
      cache alone; a miss moves the cache to `t`, empties it, and then loads. */
  function CellContours(cache: ContourCache, store: OutlineStore, t: nat): (out: (Result<seq<Contour>>, ContourCache))
    ensures t == cache.frame ==> out == (Success(cache.cells), cache)
    ensures t != cache.frame ==> out.0 == LoadContours(store, t) && out.1.frame == t
    ensures out.0.Success? ==> out.1 == ContourCache(t, out.0.value)
    ensures Coherent(cache, store) ==> out.0 == LoadContours(store, t)
    ensures Coherent(cache, store) && out.0.Success? ==> Coherent(out.1, store)
  {
    if t == cache.frame then
      (Success(cache.cells), cache)
    else
      var loaded := LoadContours(store, t);
      (loaded, ContourCache(t, if loaded.Success? then loaded.value else []))
  }

  /** A freshly constructed object holds a coherent cache, so its first
      `cell_contours(t)` call always loads frame `t`. */
  lemma FirstCallLoads(store: OutlineStore, t: nat)
    ensures Coherent(EmptyCache, store)
    ensures var out := CellContours(EmptyCache, store, t);
            out.0 == LoadContours(store, t) && out.1.frame == t
  {
  }

  /** A load that fails leaves the cache pointing at `t` with no contours, so
      asking again for the same frame succeeds with an empty mapping. */
  lemma MissingFramePoisonsCache(cache: ContourCache, store: OutlineStore, t: nat)
    requires t !in store && t != cache.frame
    ensures CellContours(cache, store, t).0 == Failure(FileNotFound)
    ensures CellContours(CellContours(cache, store, t).1, store, t).0 == Success([])
  {
  }

  /** Position of the first contour from `from` on whose polygon contains `p`. */
  function LookupIndex(cells: seq<Contour>, inside: (Pixel, Contour) -> bool, p: Pixel, from: nat): (r: Option<nat>)
    requires from <= |cells|
    ensures r.Some? ==> from <= r.value < |cells| && inside(p, cells[r.value])
    ensures r.Some? ==> forall j :: from <= j < r.value ==> !inside(p, cells[j])
    ensures r.None? <==> forall j :: from <= j < |cells| ==> !inside(p, cells[j])
    decreases |cells| - from
  {
    if from == |cells| then None
    else if inside(p, cells[from]) then Some(from)
    else LookupIndex(cells, inside, p, from + 1)
  }

  /** The loop of `lookup_cell_contour`: the first contour, in key order,
      whose polygon strictly contains `p`; `None` when none does. */
  function FirstContaining(cells: seq<Contour>, inside: (Pixel, Contour) -> bool, p: Pixel): (r: Option<Contour>)
    ensures r.None? <==> forall j :: 0 <= j < |cells| ==> !inside(p, cells[j])
    ensures r.Some? ==> exists i :: 0 <= i < |cells| && cells[i] == r.value && inside(p, r.value)
                                    && forall j :: 0 <= j < i ==> !inside(p, cells[j])
  {
    match LookupIndex(cells, inside, p, 0)
    case None => None
    case Some(i) => Some(cells[i])
  }

  /** The lookup against a freshly loaded store for frame `t`. */
  function Locate(store: OutlineStore, inside: (Pixel, Contour) -> bool, t: nat, p: Pixel): (r: Result<Option<Contour>>)
    ensures r.Success? <==> t in store
    ensures r.Failure? ==> r.error == FileNotFound
    ensures r.Success? && r.value.Some? ==> r.value.value in LoadContours(store, t).value && inside(p, r.value.value)
    ensures r.Success? ==> (r.value.None? <==> forall c :: c in LoadContours(store, t).value ==> !inside(p, c))
  {
    var cells :- LoadContours(store, t);
    Success(FirstContaining(cells, inside, p))
  }

  /** `lookup_cell_contour(t, x0, y0)` through the cache: from a coherent cache
      it answers what a fresh load would, and the cache stays coherent. */
  function LookupCellContour(cache: ContourCache, store: OutlineStore, inside: (Pixel, Contour) -> bool,
                             t: nat, p: Pixel): (out: (Result<Option<Contour>>, ContourCache))
    ensures Coherent(cache, store) ==> out.0 == Locate(store, inside, t, p)
    ensures Coherent(cache, store) && out.0.Success? ==> Coherent(out.1, store)
    ensures t == cache.frame ==> out.1 == cache
  {
    var (cells, next) := CellContours(cache, store, t);
    (if cells.Success? then Success(FirstContaining(cells.value, inside, p)) else Failure(cells.error), next)
  }

  /** Inner loop of `shared_edge` for one point `p` of the first outline: the
      pairs `(p, q)` within the contact radius, in the order of `qs`. */
  function RowPairs(p: Pixel, qs: seq<Pixel>): seq<(Pixel, Pixel)>
    decreases |qs|
  {
    if |qs| == 0 then []
    else (if InContact(p, qs[0]) then [(p, qs[0])] else []) + RowPairs(p, qs[1..])
  }

  /** Both loops of `shared_edge`: the first outline drives the outer loop. */
  function ContactPairs(ps: seq<Pixel>, qs: seq<Pixel>): seq<(Pixel, Pixel)>
    decreases |ps|
  {
    if |ps| == 0 then [] else RowPairs(ps[0], qs) + ContactPairs(ps[1..], qs)
  }

  /** The pairs as the rows of the `(2m, 2)` array: first point, then second. */
  function Flatten(pairs: seq<(Pixel, Pixel)>): seq<Pixel>
  {
    seq(2 * |pairs|, i requires 0 <= i < 2 * |pairs| => if i % 2 == 0 then pairs[i / 2].0 else pairs[i / 2].1)
  }

  lemma FlattenLayout(pairs: seq<(Pixel, Pixel)>)
    ensures |Flatten(pairs)| == 2 * |pairs|
    ensures forall k :: 0 <= k < |Flatten(pairs)| && k % 2 == 0 ==>
              k / 2 < |pairs| && Flatten(pairs)[k] == pairs[k / 2].0 && Flatten(pairs)[k + 1] == pairs[k / 2].1
  {
    var s := Flatten(pairs);
    forall k | 0 <= k < |s| && k % 2 == 0
      ensures k / 2 < |pairs| && s[k] == pairs[k / 2].0 && s[k + 1] == pairs[k / 2].1
    {
      assert (k + 1) / 2 == k / 2 && (k + 1) % 2 == 1;
    }
  }

  /** Flattening keeps each pair's two points in adjacent rows. */
  lemma FlattenKeepsContact(pairs: seq<(Pixel, Pixel)>, ps: seq<Pixel>, qs: seq<Pixel>)
    requires forall x :: x in pairs ==> x.0 in ps && x.1 in qs && InContact(x.0, x.1)
    ensures forall k :: 0 <= k && k + 1 < |Flatten(pairs)| && k % 2 == 0 ==>
              Flatten(pairs)[k] in ps && Flatten(pairs)[k + 1] in qs && InContact(Flatten(pairs)[k], Flatten(pairs)[k + 1])
  {
    var s := Flatten(pairs);
    FlattenLayout(pairs);
    forall k | 0 <= k && k + 1 < |s| && k % 2 == 0
      ensures s[k] in ps && s[k + 1] in qs && InContact(s[k], s[k + 1])
    {
      assert pairs[k / 2] in pairs;
    }
  }

  /** `shared_edge(cell_1, cell_2)`. */
  function SharedEdge(a: Contour, b: Contour): (s: seq<Pixel>)
    ensures |s| % 2 == 0
    ensures |s| == 2 * |ContactIndexPairs(a.Points(), b.Points())|
    ensures forall k :: 0 <= k && k + 1 < |s| && k % 2 == 0 ==>
              s[k] in a.Points() && s[k + 1] in b.Points() && InContact(s[k], s[k + 1])
  {
    var pairs := ContactPairs(a.Points(), b.Points());
    ContactPairsCount(a.Points(), b.Points());
    ContactPairsSound(a.Points(), b.Points());
    FlattenKeepsContact(pairs, a.Points(), b.Points());
    Flatten(pairs)
  }

  /** The position pairs `(i, j)` whose points lie within the contact radius:
      the description, independent of the loops, of what `shared_edge` counts. */
  ghost function ContactIndexPairs(ps: seq<Pixel>, qs: seq<Pixel>): set<(int, int)>
  {
    set i, j | 0 <= i < |ps| && 0 <= j < |qs| && InContact(ps[i], qs[j]) :: (i, j)
  }

  ghost function RowIndexPairs(p: Pixel, qs: seq<Pixel>, i: int): set<(int, int)>
  {
    set j | 0 <= j < |qs| && InContact(p, qs[j]) :: (i, j)
  }

  /** The inner loop visits the second outline in order. */
  lemma {:induction false} RowPairsAppend(p: Pixel, qs1: seq<Pixel>, qs2: seq<Pixel>)
    ensures RowPairs(p, qs1 + qs2) == RowPairs(p, qs1) + RowPairs(p, qs2)
    decreases |qs1|
  {
    if |qs1| == 0 {
      assert qs1 + qs2 == qs2;
    } else {
      assert (qs1 + qs2)[0] == qs1[0];
      assert (qs1 + qs2)[1..] == qs1[1..] + qs2;
      RowPairsAppend(p, qs1[1..], qs2);
    }
  }

  /** The outer loop visits the first outline in order: every contact of an
      earlier point of `cell_1` is emitted before those of a later one. */
  lemma {:induction false} ContactPairsAppend(ps1: seq<Pixel>, ps2: seq<Pixel>, qs: seq<Pixel>)
    ensures ContactPairs(ps1 + ps2, qs) == ContactPairs(ps1, qs) + ContactPairs(ps2, qs)
    decreases |ps1|
  {
    if |ps1| == 0 {
      assert ps1 + ps2 == ps2;
    } else {
      assert (ps1 + ps2)[0] == ps1[0];
      assert (ps1 + ps2)[1..] == ps1[1..] + ps2;
      ContactPairsAppend(ps1[1..], ps2, qs);
    }
  }

  lemma {:induction false} RowPairsCount(p: Pixel, qs: seq<Pixel>, i: int)
    ensures |RowPairs(p, qs)| == |RowIndexPairs(p, qs, i)|
    decreases |qs|
  {
    if |qs| == 0 {
      assert RowIndexPairs(p, qs, i) == {};
    } else {
      var front, q := qs[..|qs| - 1], qs[|qs| - 1];
      assert qs == front + [q];
      RowPairsAppend(p, front, [q]);
      RowPairsCount(p, front, i);
      assert [q][1..] == [];
      var extra: set<(int, int)> := if InContact(p, q) then {(i, |front|)} else {};
      assert |RowPairs(p, [q])| == |extra|;
      assert RowIndexPairs(p, qs, i) == RowIndexPairs(p, front, i) + extra by {
        forall x | x in RowIndexPairs(p, qs, i)
          ensures x in RowIndexPairs(p, front, i) + extra
        {
          var j :| 0 <= j < |qs| && InContact(p, qs[j]) && x == (i, j);
          if j < |front| {
            assert qs[j] == front[j];
          }
        }
        forall x | x in RowIndexPairs(p, front, i)
          ensures x in RowIndexPairs(p, qs, i)
        {
          var j :| 0 <= j < |front| && InContact(p, front[j]) && x == (i, j);
          assert qs[j] == front[j];
        }
      }
      assert (i, |front|) !in RowIndexPairs(p, front, i);
    }
  }

  /** `shared_edge` emits one pair per position pair within the contact radius. */
  lemma {:induction false} ContactPairsCount(ps: seq<Pixel>, qs: seq<Pixel>)
    ensures |ContactPairs(ps, qs)| == |ContactIndexPairs(ps, qs)|
    decreases |ps|
  {
    if |ps| == 0 {
      assert ContactIndexPairs(ps, qs) == {};
    } else {
      var front, p := ps[..|ps| - 1], ps[|ps| - 1];
      assert ps == front + [p];
      ContactPairsAppend(front, [p], qs);
      ContactPairsCount(front, qs);
      RowPairsCount(p, qs, |front|);
      assert [p][1..] == [];
      assert ContactPairs([p], qs) == RowPairs(p, qs);
      var before := ContactIndexPairs(front, qs);
      var row := RowIndexPairs(p, qs, |front|);
      assert ContactIndexPairs(ps, qs) == before + row by {
        forall x | x in ContactIndexPairs(ps, qs)
          ensures x in before + row
        {
          var i, j :| 0 <= i < |ps| && 0 <= j < |qs| && InContact(ps[i], qs[j]) && x == (i, j);
          if i < |front| {
            assert ps[i] == front[i];
          }
        }
        forall x | x in before
          ensures x in ContactIndexPairs(ps, qs)
        {
          var i, j :| 0 <= i < |front| && 0 <= j < |qs| && InContact(front[i], qs[j]) && x == (i, j);
          assert ps[i] == front[i];
        }
        forall x | x in row
          ensures x in ContactIndexPairs(ps, qs)
        {
          var j :| 0 <= j < |qs| && InContact(p, qs[j]) && x == (|front|, j);
          assert ps[|front|] == p;
        }
      }
      assert before * row == {} by {
        forall x | x in before
          ensures x !in row
        {
          var i, j :| 0 <= i < |front| && 0 <= j < |qs| && InContact(front[i], qs[j]) && x == (i, j);
        }
      }
    }
  }

  /** Every emitted pair joins a point of the first outline to a point of the
      second, within the contact radius. */
  lemma {:induction false} ContactPairsSound(ps: seq<Pixel>, qs: seq<Pixel>)
    ensures forall x :: x in ContactPairs(ps, qs) ==> x.0 in ps && x.1 in qs && InContact(x.0, x.1)
    decreases |ps|
  {
    if |ps| > 0 {
      ContactPairsSound(ps[1..], qs);
      RowPairsSound(ps[0], qs);
    }
  }

  lemma {:induction false} RowPairsSound(p: Pixel, qs: seq<Pixel>)
    ensures forall x :: x in RowPairs(p, qs) ==> x.0 == p && x.1 in qs && InContact(x.0, x.1)
    decreases |qs|
  {
    if |qs| > 0 {
      RowPairsSound(p, qs[1..]);
    }
  }

  /** Every position pair within the contact radius is emitted. */
  lemma {:induction false} ContactPairsComplete(ps: seq<Pixel>, qs: seq<Pixel>)
    ensures forall i, j :: 0 <= i < |ps| && 0 <= j < |qs| && InContact(ps[i], qs[j]) ==>
              (ps[i], qs[j]) in ContactPairs(ps, qs)
    decreases |ps|
  {
    if |ps| > 0 {
      ContactPairsComplete(ps[1..], qs);
      RowPairsComplete(ps[0], qs);
      forall i, j | 0 <= i < |ps| && 0 <= j < |qs| && InContact(ps[i], qs[j])
        ensures (ps[i], qs[j]) in ContactPairs(ps, qs)
      {
        if i > 0 {
          assert ps[i] == ps[1..][i - 1];
        }
      }
    }
  }

  lemma {:induction false} RowPairsComplete(p: Pixel, qs: seq<Pixel>)
    ensures forall j :: 0 <= j < |qs| && InContact(p, qs[j]) ==> (p, qs[j]) in RowPairs(p, qs)
    decreases |qs|
  {
    if |qs| > 0 {
      RowPairsComplete(p, qs[1..]);
      forall j | 0 <= j < |qs| && InContact(p, qs[j])
        ensures (p, qs[j]) in RowPairs(p, qs)
      {
        if j > 0 {
          assert qs[j] == qs[1..][j - 1];
        }
      }
    }
  }

  /** Each pair with its two points exchanged. */
  function Swapped(pairs: seq<(Pixel, Pixel)>): (r: seq<(Pixel, Pixel)>)
    ensures |r| == |pairs|
  {
    seq(|pairs|, k requires 0 <= k < |pairs| => (pairs[k].1, pairs[k].0))
  }

  /** The pairs `(q, p)` for one fixed second point `p`, in the order of `qs`. */
  function ColumnPairs(qs: seq<Pixel>, p: Pixel): seq<(Pixel, Pixel)>
    decreases |qs|
  {
    if |qs| == 0 then []
    else (if InContact(qs[0], p) then [(qs[0], p)] else []) + ColumnPairs(qs[1..], p)
  }

  lemma SwappedAppend(a: seq<(Pixel, Pixel)>, b: seq<(Pixel, Pixel)>)
    ensures Swapped(a + b) == Swapped(a) + Swapped(b)
  {
  }

  lemma {:induction false} SwappedRowIsColumn(p: Pixel, qs: seq<Pixel>)
    ensures Swapped(RowPairs(p, qs)) == ColumnPairs(qs, p)
    decreases |qs|
  {
    if |qs| > 0 {
      InContactSymmetric(p, qs[0]);
      SwappedAppend(if InContact(p, qs[0]) then [(p, qs[0])] else [], RowPairs(p, qs[1..]));
      SwappedRowIsColumn(p, qs[1..]);
    }
  }

  lemma {:induction false} ContactPairsWithNoSecondPoints(qs: seq<Pixel>)
    ensures ContactPairs(qs, []) == []
    decreases |qs|
  {
    if |qs| > 0 {
      ContactPairsWithNoSecondPoints(qs[1..]);
    }
  }

  /** Splitting off the first point of the inner outline. */
  lemma {:induction false} PeelFirstColumn(qs: seq<Pixel>, p: Pixel, ps: seq<Pixel>)
    ensures multiset(ContactPairs(qs, [p] + ps)) == multiset(ColumnPairs(qs, p)) + multiset(ContactPairs(qs, ps))
    decreases |qs|
  {
    if |qs| > 0 {
      assert ([p] + ps)[0] == p;
      assert ([p] + ps)[1..] == ps;
      PeelFirstColumn(qs[1..], p, ps);
    }
  }

  /** Exchanging the outlines exchanges the points of every pair: the same
      pairs, swapped, with the same multiplicities. */
  lemma {:induction false} ContactPairsSwap(ps: seq<Pixel>, qs: seq<Pixel>)
    ensures multiset(ContactPairs(qs, ps)) == multiset(Swapped(ContactPairs(ps, qs)))
    decreases |ps|
  {
    if |ps| == 0 {
      ContactPairsWithNoSecondPoints(qs);
    } else {
      var p, rest := ps[0], ps[1..];
      assert ps == [p] + rest;
      PeelFirstColumn(qs, p, rest);
      SwappedAppend(RowPairs(p, qs), ContactPairs(rest, qs));
      SwappedRowIsColumn(p, qs);
      ContactPairsSwap(rest, qs);
    }
  }

  /** `shared_edge(a, b)` and `shared_edge(b, a)` emit the same pairs with
      their points exchanged, so they have the same length. */
  lemma SharedEdgeSwap(a: Contour, b: Contour)
    ensures multiset(ContactPairs(b.Points(), a.Points())) == multiset(Swapped(ContactPairs(a.Points(), b.Points())))
    ensures |SharedEdge(a, b)| == |SharedEdge(b, a)|
  {
    ContactPairsSwap(a.Points(), b.Points());
    ContactPairsCount(a.Points(), b.Points());
    ContactPairsCount(b.Points(), a.Points());
    assert |multiset(ContactPairs(b.Points(), a.Points()))| == |ContactPairs(b.Points(), a.Points())|;
    assert |multiset(Swapped(ContactPairs(a.Points(), b.Points())))| == |ContactPairs(a.Points(), b.Points())|;
  }
}

=== FILE: trajectories.dfy ===
/** Per-cell lookups into the tracker's trajectories and the neighbour logic
    built on them: the cells present at a frame, the metric pre-filter with
    radius `3 * sqrt(mean area)`, the 2 px boundary-contact test, and the
    contact-filtered neighbour list. */
module Trajectories {
  import opened Outcomes
  import opened Segmentation

  /** A Python float as the tracker stores it. */
  datatype Float = Finite(value: real) | NaN

  /** Python's `int()` of a finite float: truncation toward zero. */
  function Truncate(r: real): (i: int)
    ensures 0.0 <= r ==> i as real <= r < i as real + 1.0
    ensures r < 0.0 ==> i as real - 1.0 < r <= i as real
  {
    if 0.0 <= r then r.Floor else -((-r).Floor)
  }

  /** Python's `int()` of a float; a NaN raises ValueError. */
  function IntOf(f: Float): Result<int>
  {
    match f
    case Finite(v) => Success(Truncate(v))
    case NaN => Failure(ValueError)
  }

  /** One btrack tracklet: the frames at which the cell exists and, in
      lock-step with them, its centroid and the region properties. */
  datatype Trajectory = Trajectory(t: seq<nat>, x: seq<Float>, y: seq<Float>, area: seq<Float>,
                                   majorAxis: seq<Float>, minorAxis: seq<Float>, orientation: seq<Float>)
  {
    predicate LockStep()
    {
      && |x| == |t| && |y| == |t| && |area| == |t|
      && |majorAxis| == |t| && |minorAxis| == |t| && |orientation| == |t|
    }
  }

  type Track = tr: Trajectory | tr.LockStep() witness Trajectory([], [], [], [], [], [], [])

  /** `k` is the first position of `t` in `s`. */
  ghost predicate FirstAt(s: seq<nat>, t: nat, k: int)
  {
    0 <= k < |s| && s[k] == t && forall j :: 0 <= j < k ==> s[j] != t
  }

  /** `list.index(t)`. */
  function IndexOf(s: seq<nat>, t: nat): (r: Result<nat>)
    ensures r.Failure? <==> t !in s
    ensures r.Failure? ==> r.error == ValueError
    ensures r.Success? ==> FirstAt(s, t, r.value)
    decreases |s|
  {
    if |s| == 0 then Failure(ValueError)
    else if s[0] == t then Success(0)
    else
      var k :- IndexOf(s[1..], t);
      assert s[k + 1] == s[1..][k];
      assert forall j :: 1 <= j < k + 1 ==> s[j] == s[1..][j - 1];
      Success(k + 1)
  }

  /** `series[times.index(t)]`. */
  function ValueAt(times: seq<nat>, series: seq<Float>, t: nat): (r: Result<Float>)
    requires |series| == |times|
    ensures t !in times ==> r == Failure(ValueError)
    ensures forall k | FirstAt(times, t, k) :: r == Success(series[k])
  {
    var k :- IndexOf(times, t);
    Success(series[k])
  }

  /** `try: return int(v) except ValueError: return -1`. */
  function IntOrSentinel(v: Result<Float>): (r: int)
    ensures v.Success? && IntOf(v.value).Success? ==> r == IntOf(v.value).value
    ensures v.Failure? || IntOf(v.value).Failure? ==> r == -1
  {
    if v.Success? && v.value.Finite? then Truncate(v.value.value) else -1
  }

  /** `x(t, ii)`: the centroid's x at the first occurrence of `t`, truncated. */
  function CentroidX(tracks: seq<Track>, t: nat, ii: nat): (r: Result<int>)
    requires ii < |tracks|
    ensures t !in tracks[ii].t ==> r == Failure(ValueError)
    ensures forall k | FirstAt(tracks[ii].t, t, k) :: r == IntOf(tracks[ii].x[k])
  {
    var v :- ValueAt(tracks[ii].t, tracks[ii].x, t);
    IntOf(v)
  }

  /** `y(t, ii)`: the centroid's y at the first occurrence of `t`, truncated. */
  function CentroidY(tracks: seq<Track>, t: nat, ii: nat): (r: Result<int>)
    requires ii < |tracks|
    ensures t !in tracks[ii].t ==> r == Failure(ValueError)
    ensures forall k | FirstAt(tracks[ii].t, t, k) :: r == IntOf(tracks[ii].y[k])
  {
    var v :- ValueAt(tracks[ii].t, tracks[ii].y, t);
    IntOf(v)
  }

  /** `A(t, ii)`: the truncated area, or -1 when `t` is absent or the area is NaN. */
  function Area(tracks: seq<Track>, t: nat, ii: nat): (r: int)
    requires ii < |tracks|
    ensures t !in tracks[ii].t ==> r == -1
    ensures forall k | FirstAt(tracks[ii].t, t, k) ::
              r == (if tracks[ii].area[k].Finite? then Truncate(tracks[ii].area[k].value) else -1)
  {
    IntOrSentinel(ValueAt(tracks[ii].t, tracks[ii].area, t))
  }

  /** `l1(t, ii)`: the truncated major-axis length, or -1. */
  function MajorAxis(tracks: seq<Track>, t: nat, ii: nat): (r: int)
    requires ii < |tracks|
    ensures t !in tracks[ii].t ==> r == -1
    ensures forall k | FirstAt(tracks[ii].t, t, k) ::
              r == (if tracks[ii].majorAxis[k].Finite? then Truncate(tracks[ii].majorAxis[k].value) else -1)
  {
    IntOrSentinel(ValueAt(tracks[ii].t, tracks[ii].majorAxis, t))
  }

  /** `l2(t, ii)`: the truncated minor-axis length, or -1. */
  function MinorAxis(tracks: seq<Track>, t: nat, ii: nat): (r: int)
    requires ii < |tracks|
    ensures t !in tracks[ii].t ==> r == -1
    ensures forall k | FirstAt(tracks[ii].t, t, k) ::
              r == (if tracks[ii].minorAxis[k].Finite? then Truncate(tracks[ii].minorAxis[k].value) else -1)
  {
    IntOrSentinel(ValueAt(tracks[ii].t, tracks[ii].minorAxis, t))
  }

  /** `theta(t, ii)`: the raw orientation, with no fallback for an absent `t`. */
  function Orientation(tracks: seq<Track>, t: nat, ii: nat): (r: Result<Float>)
    requires ii < |tracks|
    ensures t !in tracks[ii].t ==> r == Failure(ValueError)
    ensures forall k | FirstAt(tracks[ii].t, t, k) :: r == Success(tracks[ii].orientation[k])
  {
    ValueAt(tracks[ii].t, tracks[ii].orientation, t)
  }

  /** The point `(x(t, ii), y(t, ii))`. */
  function Centroid(tracks: seq<Track>, t: nat, ii: nat): (r: Result<Pixel>)
    requires ii < |tracks|
    ensures r.Success? <==> CentroidX(tracks, t, ii).Success? && CentroidY(tracks, t, ii).Success?
    ensures r.Success? ==> r.value == Pixel(CentroidX(tracks, t, ii).value, CentroidY(tracks, t, ii).value)
    ensures r.Success? ==> t in tracks[ii].t
    ensures r.Failure? ==> r.error == ValueError
  {
    var x :- CentroidX(tracks, t, ii);
    var y :- CentroidY(tracks, t, ii);
    Success(Pixel(x, y))
  }

  predicate StrictlyAscending(s: seq<nat>)
  {
    forall i, j :: 0 <= i < j < |s| ==> s[i] < s[j]
  }

  lemma AscendingCons(h: nat, rest: seq<nat>)
    requires StrictlyAscending(rest)
    requires forall x :: x in rest ==> h < x
    ensures StrictlyAscending([h] + rest)
  {
    forall i, j | 0 <= i < j < |[h] + rest|
      ensures ([h] + rest)[i] < ([h] + rest)[j]
    {
      assert ([h] + rest)[j] == rest[j - 1] && rest[j - 1] in rest;
      if i > 0 {
        assert ([h] + rest)[i] == rest[i - 1];
      }
    }
  }

  /** Keeping the head of an ascending list in front of a filtered tail keeps it ascending. */
  lemma KeepHead(js: seq<nat>, rest: seq<nat>)
    requires |js| > 0
    requires StrictlyAscending(js[1..]) ==> StrictlyAscending(rest)
    requires forall x :: x in rest ==> x in js[1..]
    ensures StrictlyAscending(js) ==> StrictlyAscending([js[0]] + rest)
  {
    if StrictlyAscending(js) {
      assert StrictlyAscending(js[1..]) by {
        forall i, j | 0 <= i < j < |js[1..]| ensures js[1..][i] < js[1..][j] {
          assert js[1..][i] == js[i + 1] && js[1..][j] == js[j + 1];
        }
      }
      forall x | x in rest ensures js[0] < x {
        var k :| 0 <= k < |js[1..]| && js[1..][k] == x;
        assert js[k + 1] == x;
      }
      AscendingCons(js[0], rest);
    }
  }

  function PresentFrom(tracks: seq<Track>, t: nat, lo: nat): (r: seq<nat>)
    requires lo <= |tracks|
    ensures StrictlyAscending(r)
    ensures forall i: nat :: i in r <==> lo <= i < |tracks| && t in tracks[i].t
    decreases |tracks| - lo
  {
    if lo == |tracks| then []
    else
      var rest := PresentFrom(tracks, t, lo + 1);
      if t in tracks[lo].t then AscendingCons(lo, rest); [lo] + rest else rest
  }

  /** `instantaneous_trajectories(t)`, as its keys in iteration order: the
      original positions of the trajectories whose time list holds `t`. */
  function Present(tracks: seq<Track>, t: nat): (r: seq<nat>)
    ensures StrictlyAscending(r)
    ensures forall i: nat :: i in r <==> i < |tracks| && t in tracks[i].t
  {
    PresentFrom(tracks, t, 0)
  }

  /** The `window` argument of `subvolume_trajectories`: row bounds, then column bounds. */
  datatype Window = Window(rowLo: real, rowHi: real, colLo: real, colHi: real)

  /** Python's chained `lo < v < hi` on a float; false for NaN. */
  predicate StrictlyBetween(lo: real, v: Float, hi: real)
  {
    v.Finite? && lo < v.value < hi
  }

  /** `is_within_window(traj)`, on the raw (untruncated) centroid at `t`. */
  predicate InWindow(tr: Track, t: nat, w: Window)
  {
    match (ValueAt(tr.t, tr.x, t), ValueAt(tr.t, tr.y, t))
    case (Success(x), Success(y)) => StrictlyBetween(w.rowLo, y, w.rowHi) && StrictlyBetween(w.colLo, x, w.colHi)
    case _ => false
  }

  function WindowFilter(tracks: seq<Track>, t: nat, w: Window, js: seq<nat>): (r: seq<nat>)
    requires forall j :: j in js ==> j < |tracks|
    ensures forall j :: j in r <==> j in js && InWindow(tracks[j], t, w)
    ensures StrictlyAscending(js) ==> StrictlyAscending(r)
    decreases |js|
  {
    if |js| == 0 then []
    else
      assert js[0] in js && forall j :: j in js[1..] ==> j in js;
      var rest := WindowFilter(tracks, t, w, js[1..]);
      if InWindow(tracks[js[0]], t, w) then
        KeepHead(js, rest);
        [js[0]] + rest
      else rest
  }

  /** `subvolume_trajectories(t, window)`: the present cells whose raw centroid
      at `t` lies strictly inside both window bounds, in key order. */
  function SubvolumeTrajectories(tracks: seq<Track>, t: nat, w: Window): (r: seq<nat>)
    ensures StrictlyAscending(r)
    ensures forall i :: i in r ==> i in Present(tracks, t)
    ensures forall i :: i in r <==>
              (i in Present(tracks, t) &&
               forall k | FirstAt(tracks[i].t, t, k) ::
                 StrictlyBetween(w.rowLo, tracks[i].y[k], w.rowHi) && StrictlyBetween(w.colLo, tracks[i].x[k], w.colHi))
  {
    WindowFilter(tracks, t, w, Present(tracks, t))
  }

  /** `average_cell_size(t)`, kept exact as `sqrt(areaSum / count)`. */
  datatype Scale = Scale(areaSum: int, count: nat)

  function AreaSumOver(tracks: seq<Track>, t: nat, js: seq<nat>): (s: int)
    requires forall j :: j in js ==> j < |tracks|
    ensures (forall j :: j in js ==> Area(tracks, t, j) >= 0) ==> s >= 0
    ensures (forall j :: j in js ==> Area(tracks, t, j) == -1) ==> s == -(|js| as int)
    decreases |js|
  {
    if |js| == 0 then 0
    else
      assert js[0] in js && forall j :: j in js[1..] ==> j in js;
      Area(tracks, t, js[0]) + AreaSumOver(tracks, t, js[1..])
  }

  /** The area distribution of `average_cell_size` has one entry per cell
      present at `t`: its `isnan` filter never removes one, because `A`
      already turned a NaN area into -1. */
  function AverageCellSize(tracks: seq<Track>, t: nat): (s: Scale)
    ensures s.count == |Present(tracks, t)|
    ensures (forall j :: j in Present(tracks, t) ==> Area(tracks, t, j) >= 0) ==> s.areaSum >= 0
    ensures (forall j :: j in Present(tracks, t) ==> Area(tracks, t, j) == -1) ==> s.areaSum == -(s.count as int)
  {
    Scale(AreaSumOver(tracks, t, Present(tracks, t)), |Present(tracks, t)|)
  }

  /** The area sum distributes over concatenation of the cell list. */
  lemma {:induction false} AreaSumAppend(tracks: seq<Track>, t: nat, js1: seq<nat>, js2: seq<nat>)
    requires forall j :: j in js1 + js2 ==> j < |tracks|
    ensures forall j :: j in js1 ==> j < |tracks|
    ensures forall j :: j in js2 ==> j < |tracks|
    ensures AreaSumOver(tracks, t, js1 + js2) == AreaSumOver(tracks, t, js1) + AreaSumOver(tracks, t, js2)
    decreases |js1|
  {
    assert forall j :: j in js1 ==> j in js1 + js2;
    assert forall j :: j in js2 ==> j in js1 + js2;
    if |js1| == 0 {
      assert js1 + js2 == js2;
    } else {
      var js := js1 + js2;
      assert js[0] == js1[0] && js[0] in js && js[1..] == js1[1..] + js2;
      assert forall j :: j in js1[1..] + js2 ==> j in js;
      AreaSumAppend(tracks, t, js1[1..], js2);
      calc {
        AreaSumOver(tracks, t, js);
        Area(tracks, t, js[0]) + AreaSumOver(tracks, t, js[1..]);
        Area(tracks, t, js1[0]) + AreaSumOver(tracks, t, js1[1..]) + AreaSumOver(tracks, t, js2);
        AreaSumOver(tracks, t, js1) + AreaSumOver(tracks, t, js2);
      }
    }
  }

  /** A one-cell list sums to that cell's `A(t, j)`. */
  lemma AreaSumSingle(tracks: seq<Track>, t: nat, j: nat)
    requires j < |tracks|
    ensures AreaSumOver(tracks, t, [j]) == Area(tracks, t, j)
  {
    assert [j][1..] == [];
  }

  /** When every listed area lies in `[lo, hi]`, the sum lies between
      `lo` and `hi` times the number of cells. */
  lemma {:induction false} AreaSumBounds(tracks: seq<Track>, t: nat, js: seq<nat>, lo: int, hi: int)
    requires forall j :: j in js ==> j < |tracks| && lo <= Area(tracks, t, j) <= hi
    ensures lo * |js| <= AreaSumOver(tracks, t, js) <= hi * |js|
    decreases |js|
  {
    if |js| > 0 {
      assert js[0] in js && forall j :: j in js[1..] ==> j in js;
      var n := |js[1..]|;
      AreaSumBounds(tracks, t, js[1..], lo, hi);
      assert AreaSumOver(tracks, t, js) == Area(tracks, t, js[0]) + AreaSumOver(tracks, t, js[1..]);
      MulSucc(lo, n);
      MulSucc(hi, n);
    }
  }

  lemma MulSucc(a: int, n: nat)
    ensures a * (n + 1) == a + a * n
  {
  }

  /** The mean area of `average_cell_size` lies between the smallest and the
      largest area of the cells present at `t`. */
  lemma MeanAreaBounds(tracks: seq<Track>, t: nat, lo: int, hi: int)
    requires forall j :: j in Present(tracks, t) ==> lo <= Area(tracks, t, j) <= hi
    ensures var s := AverageCellSize(tracks, t);
            lo * s.count <= s.areaSum <= hi * s.count
  {
    AreaSumBounds(tracks, t, Present(tracks, t), lo, hi);
  }

  /** `not (3 * sqrt(mean) < sqrt(d2))`, decided exactly. A negative sum makes
      the square root NaN and `nan < d` False, so the cell is kept; an empty
      population has a NaN mean as well. */
  predicate WithinSearchRadius(s: Scale, d2: nat): (b: bool)
    ensures s.count == 0 || s.areaSum < 0 ==> b
    ensures d2 == 0 ==> b
  {
    s.count == 0 || s.areaSum < 0 || s.count * d2 <= 9 * s.areaSum
  }

  /** For a population with a nonnegative area sum the integer test is the
      real comparison `d2 <= 9 * mean`, the square of `d <= 3 * sqrt(mean)`. */
  lemma SearchRadiusIsThreeRootMeanArea(s: Scale, d2: nat)
    requires s.count > 0 && s.areaSum >= 0
    ensures WithinSearchRadius(s, d2) <==> d2 as real <= 9.0 * (s.areaSum as real / s.count as real)
  {
    var n, a, d := s.count as real, s.areaSum as real, d2 as real;
    assert (s.count * d2) as real == n * d;
    assert 9.0 * (a / n) * n == 9.0 * a;
    if d <= 9.0 * (a / n) {
      assert n * d <= n * (9.0 * (a / n));
    } else {
      assert n * d > n * (9.0 * (a / n));
    }
  }

  /** `separation_distance(t, ii, jj)`, squared. */
  function SeparationDistance(tracks: seq<Track>, t: nat, ii: nat, jj: nat): (r: Result<nat>)
    requires ii < |tracks| && jj < |tracks|
    ensures r.Success? <==> Centroid(tracks, t, ii).Success? && Centroid(tracks, t, jj).Success?
    ensures r.Success? ==> r.value == SqDist(Centroid(tracks, t, ii).value, Centroid(tracks, t, jj).value)
    ensures r.Failure? ==> r.error == ValueError
  {
    var p :- Centroid(tracks, t, ii);
    var q :- Centroid(tracks, t, jj);
    Success(SqDist(p, q))
  }

  lemma SeparationSymmetric(tracks: seq<Track>, t: nat, ii: nat, jj: nat)
    requires ii < |tracks| && jj < |tracks|
    ensures SeparationDistance(tracks, t, ii, jj) == SeparationDistance(tracks, t, jj, ii)
  {
    if SeparationDistance(tracks, t, ii, jj).Success? {
      SqDistSymmetric(Centroid(tracks, t, ii).value, Centroid(tracks, t, jj).value);
    }
  }

  /** `jj` passes the metric pre-filter around `ii`. */
  predicate Kept(tracks: seq<Track>, t: nat, ii: nat, jj: nat, s: Scale)
    requires ii < |tracks| && jj < |tracks|
  {
    var d := SeparationDistance(tracks, t, ii, jj);
    d.Success? && WithinSearchRadius(s, d.value)
  }

  function CandidatesAmong(tracks: seq<Track>, t: nat, ii: nat, s: Scale, js: seq<nat>): (r: Result<seq<nat>>)
    requires ii < |tracks| && forall j :: j in js ==> j < |tracks|
    ensures r.Success? <==> forall j :: j in js && j != ii ==> SeparationDistance(tracks, t, ii, j).Success?
    ensures r.Failure? ==> r.error == ValueError
    ensures r.Success? ==> forall j :: j in r.value <==> j in js && j != ii && Kept(tracks, t, ii, j, s)
    ensures r.Success? && StrictlyAscending(js) ==> StrictlyAscending(r.value)
    decreases |js|
  {
    if |js| == 0 then Success([])
    else
      assert js[0] in js && forall j :: j in js[1..] ==> j in js;
      if js[0] == ii then CandidatesAmong(tracks, t, ii, s, js[1..])
      else
        var d2 :- SeparationDistance(tracks, t, ii, js[0]);
        var rest :- CandidatesAmong(tracks, t, ii, s, js[1..]);
        if WithinSearchRadius(s, d2) then
          KeepHead(js, rest);
          Success([js[0]] + rest)
        else Success(rest)
  }

  /** `neighbor_candidates(t, ii)`: the other cells present at `t`, in key
      order, whose squared centroid distance from `ii` is within
      `9 * mean area`; ValueError when a centroid it needs cannot be read. */
  function NeighborCandidates(tracks: seq<Track>, t: nat, ii: nat): (r: Result<seq<nat>>)
    requires ii < |tracks|
    ensures r.Success? <==> forall jj :: jj in Present(tracks, t) && jj != ii ==> SeparationDistance(tracks, t, ii, jj).Success?
    ensures r.Failure? ==> r.error == ValueError
    ensures r.Success? ==> StrictlyAscending(r.value) && ii !in r.value
    ensures r.Success? ==> forall jj :: jj in r.value <==>
              jj in Present(tracks, t) && jj != ii && Kept(tracks, t, ii, jj, AverageCellSize(tracks, t))
  {
    CandidatesAmong(tracks, t, ii, AverageCellSize(tracks, t), Present(tracks, t))
  }

  /** At a fixed frame the radius is the same for every cell and the distance
      is symmetric, so the pre-filter is a symmetric relation. */
  lemma CandidatesSymmetric(tracks: seq<Track>, t: nat, ii: nat, jj: nat)
    requires ii < |tracks| && jj < |tracks|
    requires NeighborCandidates(tracks, t, ii).Success? && NeighborCandidates(tracks, t, jj).Success?
    ensures jj in NeighborCandidates(tracks, t, ii).value <==> ii in NeighborCandidates(tracks, t, jj).value
  {
    SeparationSymmetric(tracks, t, ii, jj);
    var s := AverageCellSize(tracks, t);
    if jj in NeighborCandidates(tracks, t, ii).value {
      assert Kept(tracks, t, ii, jj, s);
      assert ii in Present(tracks, t);
      assert Kept(tracks, t, jj, ii, s);
    }
    if ii in NeighborCandidates(tracks, t, jj).value {
      assert Kept(tracks, t, jj, ii, s);
      assert jj in Present(tracks, t);
      assert Kept(tracks, t, ii, jj, s);
    }
  }

  /** When every cell present at `t` has a NaN area, the mean is negative, its
      square root is NaN, and every other present cell passes the pre-filter. */
  lemma NaNAreasKeepEveryCell(tracks: seq<Track>, t: nat, ii: nat, jj: nat)
    requires ii < |tracks| && jj < |tracks|
    requires forall j :: j in Present(tracks, t) ==> Area(tracks, t, j) == -1
    requires jj in Present(tracks, t) && jj != ii
    requires NeighborCandidates(tracks, t, ii).Success?
    ensures jj in NeighborCandidates(tracks, t, ii).value
  {
    var s := AverageCellSize(tracks, t);
    assert s.count > 0;
    assert s.areaSum < 0;
  }

  /** `are_neighbors` keeps a pair when `sqrt(d2) <= 2.0`, that is when `d2 <= 4`. */
  const AdjacencyRadius2: nat := 4

  function AnyWithin(p: Pixel, qs: seq<Pixel>): (b: bool)
    ensures b <==> exists j :: 0 <= j < |qs| && SqDist(p, qs[j]) <= AdjacencyRadius2
    decreases |qs|
  {
    if |qs| == 0 then false
    else if SqDist(p, qs[0]) <= AdjacencyRadius2 then true
    else
      var rest := AnyWithin(p, qs[1..]);
      assert forall j :: 1 <= j < |qs| ==> qs[j] == qs[1..][j - 1];
      rest
  }

  function AnyPairWithin(ps: seq<Pixel>, qs: seq<Pixel>): (b: bool)
    ensures b <==> exists i, j :: 0 <= i < |ps| && 0 <= j < |qs| && SqDist(ps[i], qs[j]) <= AdjacencyRadius2
    decreases |ps|
  {
    if |ps| == 0 then false
    else if AnyWithin(ps[0], qs) then true
    else
      var rest := AnyPairWithin(ps[1..], qs);
      assert forall i :: 1 <= i < |ps| ==> ps[i] == ps[1..][i - 1];
      rest
  }

  /** `are_neighbors(cell_1, cell_2)`: false when either contour is missing,
      otherwise whether some pair of outline points lies within 2 px. */
  function AreNeighbors(c1: Option<Contour>, c2: Option<Contour>): (r: bool)
    ensures r <==>
              (c1.Some? && c2.Some? &&
               exists i, j :: 0 <= i < |c1.value.Points()| && 0 <= j < |c2.value.Points()| &&
                 SqDist(c1.value.Points()[i], c2.value.Points()[j]) <= AdjacencyRadius2)
  {
    c1.Some? && c2.Some? && AnyPairWithin(c1.value.Points(), c2.value.Points())
  }

  lemma AreNeighborsSymmetric(c1: Option<Contour>, c2: Option<Contour>)
    ensures AreNeighbors(c1, c2) == AreNeighbors(c2, c1)
  {
    if AreNeighbors(c1, c2) {
      var i, j :| 0 <= i < |c1.value.Points()| && 0 <= j < |c2.value.Points()| &&
                  SqDist(c1.value.Points()[i], c2.value.Points()[j]) <= AdjacencyRadius2;
      SqDistSymmetric(c1.value.Points()[i], c2.value.Points()[j]);
    }
    if AreNeighbors(c2, c1) {
      var j, i :| 0 <= j < |c2.value.Points()| && 0 <= i < |c1.value.Points()| &&
                  SqDist(c2.value.Points()[j], c1.value.Points()[i]) <= AdjacencyRadius2;
      SqDistSymmetric(c2.value.Points()[j], c1.value.Points()[i]);
    }
  }

  /** The 1 px contact radius lies inside the 2 px adjacency radius, so a
      nonempty shared edge means the two cells are neighbours. */
  lemma SharedEdgeImpliesNeighbors(a: Contour, b: Contour)
    requires |SharedEdge(a, b)| > 0
    ensures AreNeighbors(Some(a), Some(b))
  {
    var s := SharedEdge(a, b);
    assert s[0] in a.Points() && s[1] in b.Points() && InContact(s[0], s[1]);
    var i :| 0 <= i < |a.Points()| && a.Points()[i] == s[0];
    var j :| 0 <= j < |b.Points()| && b.Points()[j] == s[1];
    assert SqDist(a.Points()[i], b.Points()[j]) <= AdjacencyRadius2;
  }

  /** Everything the engine reads: the tracks, the stored segmentations, the
      point-in-polygon test of shapely, and the per-pixel means of a cell's pixels. */
  datatype Experiment = Experiment(tracks: seq<Track>, store: OutlineStore,
                                   inside: (Pixel, Contour) -> bool,
                                   pixelMeans: (nat, Pixel) -> seq<Float>)

  /** `lookup_cell_contour(t, x(t, ii), y(t, ii))`. */
  function ContourOfCell(exp: Experiment, t: nat, ii: nat): (r: Result<Option<Contour>>)
    requires ii < |exp.tracks|
    ensures r.Success? <==> Centroid(exp.tracks, t, ii).Success? && t in exp.store
    ensures r.Success? ==>
              r.value == FirstContaining(LoadContours(exp.store, t).value, exp.inside, Centroid(exp.tracks, t, ii).value)
  {
    var c :- Centroid(exp.tracks, t, ii);
    Locate(exp.store, exp.inside, t, c)
  }

  /** Cells `ii` and `jj` are both located at `t` and their contours touch. */
  predicate Touching(exp: Experiment, t: nat, ii: nat, jj: nat)
    requires ii < |exp.tracks| && jj < |exp.tracks|
  {
    var c1 := ContourOfCell(exp, t, ii);
    var c2 := ContourOfCell(exp, t, jj);
    c1.Success? && c2.Success? && AreNeighbors(c1.value, c2.value)
  }

  /** `lookup_cell_contour` at each cell's centroid at time `t`, as a
      function of the cell index; an index past the last track raises
      IndexError. */
  function CellLookup(exp: Experiment, t: nat): (look: nat -> Result<Option<Contour>>)
    ensures forall j: nat :: j < |exp.tracks| ==> look(j) == ContourOfCell(exp, t, j)
  {
    (j: nat) => if j < |exp.tracks| then ContourOfCell(exp, t, j) else Failure(IndexError)
  }

  /** The loop of `neighbors`: the cells of `js`, in order, whose contour
      (as `look` finds it) touches `own`. */
  function AdjacentAmong(look: nat -> Result<Option<Contour>>, own: Option<Contour>, js: seq<nat>): (r: Result<seq<nat>>)
    ensures r.Success? <==> forall j :: j in js ==> look(j).Success?
    ensures r.Success? ==> forall j :: j in r.value <==> j in js && AreNeighbors(own, look(j).value)
    ensures r.Success? && StrictlyAscending(js) ==> StrictlyAscending(r.value)
    decreases |js|
  {
    if |js| == 0 then Success([])
    else
      assert js[0] in js && forall j :: j in js[1..] ==> j in js;
      var c2 :- look(js[0]);
      var rest :- AdjacentAmong(look, own, js[1..]);
      var r := [js[0]] + rest;
      assert forall j :: j in r <==> j == js[0] || j in rest;
      if AreNeighbors(own, c2) then
        KeepHead(js, rest);
        Success(r)
      else Success(rest)
  }

  /** `neighbors(t, ii)`: the candidates, in candidate order, whose contour
      touches that of `ii`. It fails exactly when `ii`'s contour or the
      candidate list cannot be computed. */
  function Neighbors(exp: Experiment, t: nat, ii: nat): (r: Result<seq<nat>>)
    requires ii < |exp.tracks|
    ensures r.Success? <==> ContourOfCell(exp, t, ii).Success? && NeighborCandidates(exp.tracks, t, ii).Success?
    ensures r.Success? ==> StrictlyAscending(r.value)
    ensures r.Success? ==> forall jj :: jj in r.value ==> jj in Present(exp.tracks, t) && jj < |exp.tracks|
    ensures r.Success? ==> forall jj :: jj in r.value <==>
              jj in NeighborCandidates(exp.tracks, t, ii).value && Touching(exp, t, ii, jj)
  {
    var own :- ContourOfCell(exp, t, ii);
    var candidates :- NeighborCandidates(exp.tracks, t, ii);
    var look := CellLookup(exp, t);
    assert forall j :: j in candidates ==> j < |exp.tracks| && look(j) == ContourOfCell(exp, t, j) && look(j).Success? by {
      forall j | j in candidates ensures j < |exp.tracks| && look(j) == ContourOfCell(exp, t, j) && look(j).Success? {
        assert Kept(exp.tracks, t, ii, j, AverageCellSize(exp.tracks, t));
      }
    }
    AdjacentAmong(look, own, candidates)
  }

  /** Contact is mutual: when both lists can be computed, `jj` is a neighbour
      of `ii` exactly when `ii` is a neighbour of `jj`. */
  lemma NeighborsSymmetric(exp: Experiment, t: nat, ii: nat, jj: nat)
    requires ii < |exp.tracks| && jj < |exp.tracks|
    requires Neighbors(exp, t, ii).Success? && Neighbors(exp, t, jj).Success?
    ensures jj in Neighbors(exp, t, ii).value <==> ii in Neighbors(exp, t, jj).value
  {
    CandidatesSymmetric(exp.tracks, t, ii, jj);
    if ContourOfCell(exp, t, ii).Success? && ContourOfCell(exp, t, jj).Success? {
      AreNeighborsSymmetric(ContourOfCell(exp, t, ii).value, ContourOfCell(exp, t, jj).value);
    }
  }
}
